=== FILE: README.md ===
# Travel journal app — a Dafny model

The app is a single-user travel companion. It keeps five collections in the top-level
component's state:

- trips, and each trip's days of timed itinerary items;
- free-form memos of type eat, buy or go;
- safety data: emergency contacts, a passport number and the accommodation;
- mood entries, newest first.

Four screens edit these collections through callbacks that replace a whole collection at a
time. A backup document can be exported, and imported again as a sparse merge.

The model is split into these modules:

| module | file | what it holds |
|---|---|---|
| `Common` | `common.dfy` | optional values, and JavaScript's logical-or fallback on strings |
| `Text` | `text.dfy` | ordinal string order, for JavaScript's `<` and `localeCompare` on the ASCII dates and times the app compares; zero-padded numbers; `YYYY-MM-DD` dates and `HH:MM` times |
| `Collections` | `collections.dfy` | the three array idioms every handler uses, keyed on the record's `id`: replace-by-id (`map`), remove-by-id (`filter`), find |
| `Types` | `types.dfy` | the records as datatypes, and the mood-icon switch |
| `App` | `app.dfy` | the store as a class with one field per collection and one method per handler, plus the backup document and the import merge |
| `Itinerary` | `itinerary.dfy` | trip status, the new-trip form, the trip list (class `TripList`), the item editor, the stable sort of a day's items by time, and the trip-detail screen (class `TripDetail`) |
| `Memo` | `memo.dfy` | the type filter, saving a draft, the completion toggle, the comma-separated tag field, and the screen (class `MemoView`) |
| `Safety` | `safety.dfy` | the contact form, and the passport and accommodation edits (class `SafetyView`) |
| `MoodCapture` | `mood.dfy` | today's capture and the past-entry editor (class `MoodView`) |

Each screen is a class that holds its own React state as fields and a reference to the
store. The class's methods are the screen's event handlers.

Wall-clock timestamps are parameters wherever the code reads the clock:

- `now`, `freshId` and `stamp` stand for `Date.now()`;
- `today` and `exportDate` stand for the ISO date.

A `window.confirm` answer is a `confirmed` flag. The file reader's outcome is an
`ImportInput`: either text that failed to parse, or a parsed document.

The central results:

- **Item order.** Saving a new item into a day leaves the items sorted by time and a
  permutation of the old items plus the new one. The in-place array sort is proved equal to
  a functional stable insertion sort (`SortItemsByTime`, `SortByTimeCorrect`,
  `SortByTimeOfSorted`). The sort is stable (`SortByTimeStable`).
- **Trip status.** The status computed by string comparison agrees with calendar order on
  well-formed dates (`TripStatusByCalendar`, via `IsoOrder`).
- **Backup.** Importing an exported document restores exactly the exported collections,
  whatever the state before. Importing twice equals importing once. A rejected import
  changes nothing (`ExportImportRoundTrip`, `ImportIdempotent`, `App.Store.Import`).
- **Tags.** Parsing the tag field's displayed text gives back the tags
  (`ParseShowTags`, `ParseTagsStable`). Typed text gives, piece by piece between commas,
  each piece's trimmed text when it is non-empty, in order (`ParseTagsCons`, `ParseTagsLast`).
- **Day selection.** Deleting a day never leaves a stale selection when one was valid before
  (`TripDetail.DeleteDay`, `DeleteSelectedDay`).

## Model

| member | source | states |
|---|---|---|
| Common.OrElse | views/ItineraryView.tsx:111 | JavaScript's logical-or fallback on a string: s when non-empty, else the fallback |
| Types.MoodIcon | types.ts:72-80 | each of the four moods maps to its own emoji, never the neutral default |
| Types.MoodIconOfName | types.ts:72-80 | the switch on an arbitrary string: any name outside the four moods gets the neutral face |
| Types.MoodIconDefaultUnreachable | types.ts:72-80 | for every well-typed mood the switch reaches its own case, so the default branch is dead |
| Types.MoodIconInjective | types.ts:73-77 | different moods show different icons |
| Types.MoodName | types.ts:67 | a mood's name is one of "HAPPY", "CALM", "TIRED" and "LOVED" |
| Types.MoodNameInjective | types.ts:67 | different moods have different names |
| Text.LtIffNotLe | views/ItineraryView.tsx:32-34 | string `<` is the negation of the reversed `<=`, so the two status tests cover every case |
| Text.LeTotal | views/ItineraryView.tsx:269 | the time comparison is total |
| Text.LeTransitive | views/ItineraryView.tsx:269 | the time comparison is transitive |
| Text.LeAntisymmetric | views/ItineraryView.tsx:269 | two strings each no greater than the other are equal |
| Text.IsoOrder | types.ts:11-12 | for valid dates, string order on `YYYY-MM-DD` is calendar order, and equal strings mean equal dates |
| Text.TimeString | views/ItineraryView.tsx:485-490 | the time selector writes two zero-padded digits, a colon, and two more; the four non-colon characters are decimal digits |
| Text.FieldBefore | views/ItineraryView.tsx:482 | `split(c)[0]`: the prefix of s without c, ending at the first c or at the end |
| Text.SecondField | views/ItineraryView.tsx:483 | `split(c)[1]`, with a missing field as the empty text: for a text without c it is empty; otherwise it is the text from just after the first c up to the next c or the end |
| Text.SelectorTime | views/ItineraryView.tsx:481-487 | the time the selector writes back on mount has exactly one colon, between two non-empty fields: the input's first field or "10", and its second field or "00" |
| Text.SelectorTimeOfFields | views/ItineraryView.tsx:481-487 | two non-empty colon-free fields joined by a colon are written back unchanged |
| Text.SelectorKeepsMenuTimes | views/ItineraryView.tsx:481-490 | every time the hour and minute menus produce is written back unchanged |
| Text.SelectorTimeIdempotent | views/ItineraryView.tsx:485-487 | rewriting an already rewritten time changes nothing |
| Text.SelectorTimeAddsMinutes | views/ItineraryView.tsx:481-487 | a time without a colon gains a minute field: "0930" becomes "0930:00" |
| Text.SelectorTimeOfEmpty | views/ItineraryView.tsx:482-487 | an empty time is written back as "10:00" |
| Text.SelectorTimeOfHourOnly | views/ItineraryView.tsx:483-487 | "10:" is written back as "10:00" |
| Text.SelectorTimeOfMinuteOnly | views/ItineraryView.tsx:482-487 | ":30" is written back as "10:30" |
| Text.SelectorTimeDropsThirdField | views/ItineraryView.tsx:482-487 | "1:2:3" is written back as "1:2" |
| Text.TimeOrder | views/ItineraryView.tsx:485-490 | string order on selector times is order by minutes since midnight; equal strings mean equal times |
| Text.Decimal | views/ItineraryView.tsx:305 | the decimal text of a day number has at least one digit; it starts with '0' exactly when the number is 0, and a text of k > 1 digits stands for a number of at least 10^(k-1) |
| Text.DecimalInjective | views/ItineraryView.tsx:305 | different day numbers get different "Day n" labels |
| Collections.ReplaceById | App.tsx:96 | same length; every element with the new element's id is replaced by it; the others stay where they are |
| Collections.ReplaceByIdKeys | App.tsx:112 | replacing by id keeps the ids, position by position |
| Collections.ReplaceByIdAbsent | views/SafetyView.tsx:60 | replacing an id that no element has changes nothing |
| Collections.RemoveById | App.tsx:100 | no remaining element has the id, and the list does not grow |
| Collections.RemoveByIdCount | App.tsx:113 | every element without the id survives as often as it occurred; those with the id are gone |
| Collections.RemoveByIdAppend | App.tsx:121 | removal works piecewise, so the order of the survivors is kept |
| Collections.RemoveByIdAbsent | App.tsx:100 | removing an id that no element has changes nothing |
| Collections.FindIndex | views/ItineraryView.tsx:262 | the first index whose element has the id, or none when no element has it |
| Collections.Find | views/ItineraryView.tsx:257 | an element with the id exactly when one exists, and it is the one at the first index that has the id |
| App.FirstDay | App.tsx:89-91 | a new trip's day is "Day 1", on its start date, with no items, and its id is "d1-" followed by the trip's id |
| App.ExportDocument | App.tsx:124-133 | the backup holds all five collections, the export time and version "1.0" |
| App.ImportOutcomeOf | App.tsx:148-164 | unparsable text fails to read; a document is restored exactly when it has trips and itinerary data; otherwise a format error |
| App.ApplyImport | App.tsx:151-156 | a rejected input changes nothing; an accepted one replaces trips and itinerary data, and memos, safety data and moods only where present |
| App.ExportImportRoundTrip | App.tsx:124-156 | importing an exported document restores exactly the exported collections |
| App.ImportIdempotent | App.tsx:151-156 | importing the same input twice equals importing it once |
| App.Store.constructor | App.tsx:78-82 | the store starts from the initial collections |
| App.Store.AddTrip | App.tsx:85-93 | the trip is appended and its id gets a one-day itinerary; nothing else changes |
| App.Store.UpdateTrip | App.tsx:95-97 | trips with the id are replaced; nothing else changes |
| App.Store.DeleteTrip | App.tsx:99-104 | trips with the id are removed and its itinerary key is deleted |
| App.Store.UpdateItinerary | App.tsx:106-108 | the trip's day list is replaced wholesale |
| App.Store.AddMemo | App.tsx:111 | the memo is appended |
| App.Store.UpdateMemo | App.tsx:112 | memos with the id are replaced |
| App.Store.DeleteMemo | App.tsx:113 | memos with the id are removed |
| App.Store.UpdateSafety | App.tsx:116 | the safety data is replaced |
| App.Store.AddMood | App.tsx:119 | the entry is prepended (newest first) |
| App.Store.UpdateMood | App.tsx:120 | entries with the id are replaced |
| App.Store.DeleteMood | App.tsx:121 | entries with the id are removed |
| App.Store.Import | App.tsx:145-164 | returns the notice for the input and leaves exactly the merged state |
| App.AddTwoMoods | App.tsx:119 | two moods added in turn appear latest first, ahead of the older entries |
| App.AddThenDeleteTrip | App.tsx:85-104 | a trip added then deleted leaves no trip with its id and no itinerary under it |
| Itinerary.TripStatusOf | views/ItineraryView.tsx:20-35 | planning iff today is before the start; completed iff the end is before today (and today is not before the start); ongoing otherwise |
| Itinerary.TripStatusByCalendar | views/ItineraryView.tsx:20-35 | on valid dates the three statuses follow calendar order |
| Itinerary.CreateTrip | views/ItineraryView.tsx:105-112 | no trip without a name and start; otherwise the id is the timestamp, and the end date defaults to the start |
| Itinerary.OneDayTrip | views/ItineraryView.tsx:105-112 | a trip created without an end date is ongoing exactly on its start date |
| Itinerary.TripList.constructor | views/ItineraryView.tsx:97-100 | the form starts closed and empty |
| Itinerary.TripList.Create | views/ItineraryView.tsx:105-118 | an incomplete form changes nothing; a complete one adds the trip and its first day, and closes and clears the form |
| Itinerary.TripList.ChooseImportFile | views/ItineraryView.tsx:120-129 | without confirmation nothing is imported; with it, the store takes the merged state and the notice is returned |
| Itinerary.EditorForm | views/ItineraryView.tsx:529-532 | a new item opens at 10:00 with empty texts; an existing item opens with its own fields, except that an empty time shows as 10:00 and a missing note as the empty text |
| Itinerary.EditorSave | views/ItineraryView.tsx:534-545 | refused without title and location; the title falls back to the location; the id is kept or taken from the timestamp; completion is kept |
| Itinerary.EditorUntouched | views/ItineraryView.tsx:529-545 | opening an item and saving it untouched, after the time selector's rewrite, gives back the same item whenever the rewrite keeps its time |
| Itinerary.SortedByTimePairwise | views/ItineraryView.tsx:269 | in a time-sorted day, every earlier item is no later than every later one |
| Itinerary.InsertByTimeCount | views/ItineraryView.tsx:269 | insertion adds exactly the new item |
| Itinerary.InsertByTimeSorted | views/ItineraryView.tsx:269 | insertion into a sorted day keeps it sorted |
| Itinerary.SortByTimeCorrect | views/ItineraryView.tsx:269 | the sort returns a time-ordered permutation of the items |
| Itinerary.SortByTimeOfSorted | views/ItineraryView.tsx:269 | sorting an already ordered day leaves it unchanged |
| Itinerary.InsertIntoPrefix | views/ItineraryView.tsx:269 | one pass of the in-place sort: the sorted prefix grows by one element, as the functional insertion says |
| Itinerary.SortItemsByTime | views/ItineraryView.tsx:269 | the in-place sort leaves the array equal to the stable functional sort of its old contents |
| Itinerary.InsertByTime | views/ItineraryView.tsx:268-269 | inserting one item into a day lengthens it by exactly one |
| Itinerary.SortByTime | views/ItineraryView.tsx:269 | the sort keeps the number of items |
| Itinerary.ItemsAt | views/ItineraryView.tsx:269 | the items of a day at one time: no more than the day holds, each at that time |
| Itinerary.InsertByTimeStable | views/ItineraryView.tsx:268-269 | a pushed item lands behind every item at its own time, and the items at any other time keep their order |
| Itinerary.SortByTimeStable | views/ItineraryView.tsx:269 | the sort is stable: for every time, the items at that time come out in their input order |
| Itinerary.SavedItems | views/ItineraryView.tsx:263-270 | an item whose id exists replaces it in place; otherwise the day becomes a time-ordered permutation of its items plus the new one |
| Itinerary.SavedIntoSorted | views/ItineraryView.tsx:266-270 | adding to a day already in order inserts the new item behind every no-later item |
| Itinerary.SaveIntoEmpty | views/ItineraryView.tsx:266-270 | the first item of an empty day is the whole day |
| Itinerary.SaveEarlier | views/ItineraryView.tsx:266-270 | an earlier item saved later goes in front |
| Itinerary.SaveBetween | views/ItineraryView.tsx:266-270 | an item timed between two goes between them |
| Itinerary.ThreeItemsInTimeOrder | views/ItineraryView.tsx:266-270 | items saved at 18:00, 07:00 and 12:30 end up as 07:00, 12:30, 18:00 |
| Itinerary.TripDetail.constructor | views/ItineraryView.tsx:247-249 | the first day is selected (or none), the editor is closed, and the selection is valid |
| Itinerary.TripDetail.RepairSelection | views/ItineraryView.tsx:251-255 | a selection missing from non-empty days moves to the first day; a valid one is kept |
| Itinerary.TripDetail.SaveItem | views/ItineraryView.tsx:261-273 | an unknown day changes nothing; otherwise the day's items become the saved items and the editor closes |
| Itinerary.TripDetail.DeleteItem | views/ItineraryView.tsx:275-282 | an unknown day changes nothing; otherwise the items with the id leave that day and the editor closes |
| Itinerary.TripDetail.ToggleComplete | views/ItineraryView.tsx:284-290 | the first item with the id on the selected day flips its completion in place; no selected day or no such item changes nothing |
| Itinerary.TripDetail.AddDay | views/ItineraryView.tsx:292-310 | appends "Day n+1", dated at the start or the day after the last day, and selects it |
| Itinerary.TripDetail.DeleteDay | views/ItineraryView.tsx:312-321 | unconfirmed, nothing changes; confirmed, the day is removed; a deleted selection moves to the first remaining day; a valid selection stays valid |
| Itinerary.TripDetail.SelectDay | views/ItineraryView.tsx:349 | a tab click selects that day |
| Itinerary.TripDetail.OpenEditor | views/ItineraryView.tsx:370 | the editor opens on a day with an item, or with none for a new item |
| Itinerary.TripDetail.CloseEditor | views/ItineraryView.tsx:473 | the editor closes |
| Itinerary.TripDetail.SaveFromEditor | views/ItineraryView.tsx:471 | a refused form changes nothing; when the editor's day is no longer in the trip nothing changes; otherwise the edited item is saved into that day and the editor closes; the other collections and the selected day stay |
| Itinerary.TripDetail.DeleteFromEditor | views/ItineraryView.tsx:472 | when the editor's day is no longer in the trip nothing changes; otherwise the edited item's id is removed from that day and the editor closes; the other collections and the selected day stay |
| Itinerary.TripDetail.EditTrip | views/ItineraryView.tsx:452-457 | the trip keeps its id and takes the new name and dates |
| Itinerary.DeleteSelectedDay | views/ItineraryView.tsx:251-255 | deleting the selected day and running the effect leaves a valid selection |
| Memo.FilterMemos | views/MemoView.tsx:16 | "all" shows every memo; a type shows only memos of that type |
| Memo.OfKind | views/MemoView.tsx:16 | the type filter keeps only memos of the type |
| Memo.OfKindCount | views/MemoView.tsx:16 | the type filter keeps every memo of the type as often as it occurs, and no other |
| Memo.OfKindAppend | views/MemoView.tsx:16 | the type filter keeps the relative order |
| Memo.NewDraft | views/MemoView.tsx:61 | a new draft is an eat memo with no tags, not completed, without id or content |
| Memo.Save | views/MemoView.tsx:37-54 | refused without content or type; an update iff the draft has an id; tags and completion default to empty and false |
| Memo.NewDraftSave | views/MemoView.tsx:37-61 | a new draft is refused until it has content; then it is added with the defaults |
| Memo.SaveOpenedMemo | views/MemoView.tsx:37-54 | re-saving an opened memo with content dispatches an update with that very memo when it has an id, and otherwise adds it under the fresh id |
| Memo.ToggleComplete | views/MemoView.tsx:56-59 | only completion flips |
| Memo.ToggleTwice | views/MemoView.tsx:56-59 | toggling twice restores the memo |
| Memo.TrimStart | views/MemoView.tsx:178 | no leading white space is left; the result is empty iff the text is all white |
| Memo.TrimEnd | views/MemoView.tsx:178 | no trailing white space is left; the result is empty iff the text is all white |
| Memo.Trim | views/MemoView.tsx:178 | the result is empty, or starts and ends with non-white characters |
| Memo.TrimStartSuffix | views/MemoView.tsx:178 | trimming the start drops exactly a white prefix and keeps the rest of the text |
| Memo.TrimEndPrefix | views/MemoView.tsx:178 | trimming the end drops exactly a white suffix and keeps the rest of the text |
| Memo.TrimInfix | views/MemoView.tsx:178 | the trimmed text is a contiguous piece of the text with only white space before and after it |
| Memo.TrimPaddedTag | views/MemoView.tsx:178 | trimming white space in front of a tag gives the tag |
| Memo.SplitComma | views/MemoView.tsx:178 | at least one part, and no part contains a comma |
| Memo.JoinSplitComma | views/MemoView.tsx:178 | joining the parts with commas gives back the text |
| Memo.SplitCommaHead | views/MemoView.tsx:178 | splitting at the first comma gives the text before it, then the split of the rest |
| Memo.CleanTags | views/MemoView.tsx:178 | every kept tag is non-empty and trimmed, and there are no more tags than parts |
| Memo.ParseTags | views/MemoView.tsx:178 | every parsed tag is non-empty, trimmed and without a comma |
| Memo.CleanTagsOne | views/MemoView.tsx:178 | one part gives its trimmed text, or nothing when that is empty |
| Memo.CleanTagsAppend | views/MemoView.tsx:178 | cleaning two runs of parts one after the other gives the tags of the first run, then those of the second |
| Memo.ParseTagsCons | views/MemoView.tsx:178 | the text up to the first comma gives its trimmed text, unless empty, ahead of the tags of the rest |
| Memo.ParseTagsLast | views/MemoView.tsx:178 | text without a comma gives its trimmed text, or no tag when that is empty |
| Memo.Join | views/MemoView.tsx:177 | joining no parts gives the empty text and one part gives that part; the first part starts the result, and every character comes from the separator or a part |
| Memo.ShowTags | views/MemoView.tsx:177 | no tags show as the empty text and one tag as itself; every character shown is a comma, a space, or a character of a tag |
| Memo.CleanSplitShown | views/MemoView.tsx:177-178 | white space, then the displayed tags, parse back to the tags |
| Memo.ParseShowTags | views/MemoView.tsx:177-178 | parsing the displayed text of parsed-shaped tags gives back the tags |
| Memo.ParseTagsStable | views/MemoView.tsx:177-178 | re-parsing the displayed tags changes nothing |
| Memo.DraftOf | views/MemoView.tsx:95 | a clicked memo opens as a copy: its id, type, content, tags and completion, all present; the draft has a usable id and content exactly when the memo's are non-empty |
| Memo.MemoView.constructor | views/MemoView.tsx:13-14 | the filter starts at "all" and the editor is closed |
| Memo.MemoView.SetFilter | views/MemoView.tsx:79 | the filter changes; the draft stays |
| Memo.MemoView.OpenEditor | views/MemoView.tsx:61 | opens on the new-memo draft, or on a clicked memo's fields |
| Memo.MemoView.CloseEditor | views/MemoView.tsx:146 | the editor closes |
| Memo.MemoView.SetKind | views/MemoView.tsx:154 | only the draft's type changes |
| Memo.MemoView.SetContent | views/MemoView.tsx:168 | only the draft's content changes |
| Memo.MemoView.SetTagsText | views/MemoView.tsx:178 | the draft's tags become the parsed text |
| Memo.MemoView.SaveEditor | views/MemoView.tsx:37-54 | a refused draft changes nothing; otherwise the memo is appended or replaces its id, and the editor closes |
| Memo.MemoView.Toggle | views/MemoView.tsx:56-59 | the toggled memo replaces its id in the store |
| Memo.MemoView.DeleteEditing | views/MemoView.tsx:186-187 | the draft's id is removed from the memos and the editor closes |
| Memo.ResaveMemo | views/MemoView.tsx:37-54 | opening a memo with content and saving it untouched writes it back over itself, or appends it under the fresh id when it has no id |
| Safety.ContactDraftOf | views/SafetyView.tsx:88 | a clicked contact opens as a copy: its id, name, phone and relation, all present; the draft can be saved exactly when the contact's name and phone are non-empty |
| Safety.Saveable | views/SafetyView.tsx:50 | a contact draft is saved exactly when it has a non-empty name and a non-empty phone |
| Safety.ContactFromDraft | views/SafetyView.tsx:51-56 | the id falls back to the timestamp, the relation to the empty string; name and phone are copied |
| Safety.ContactDraftRoundTrip | views/SafetyView.tsx:49-60 | re-saving an opened contact with a name and a phone gives that very contact, or the contact under the timestamp id when it has no id |
| Safety.SafetyView.constructor | views/SafetyView.tsx:13-19 | the passport and accommodation drafts start from the data shown; the contact draft is empty |
| Safety.SafetyView.SavePassport | views/SafetyView.tsx:39-42 | only the passport number changes in the store, and the form closes; the contact, passport and accommodation drafts stay |
| Safety.SafetyView.SaveAccommodation | views/SafetyView.tsx:44-47 | only the accommodation changes in the store, and the form closes; the contact, passport and accommodation drafts stay |
| Safety.SafetyView.OpenSection | views/SafetyView.tsx:107 | the section's form opens |
| Safety.SafetyView.CloseSection | views/SafetyView.tsx:154 | the form closes and its draft stays |
| Safety.SafetyView.ResumeContactForm | views/SafetyView.tsx:83 | the contact form reopens on the draft it holds; the open section and the passport and accommodation drafts stay |
| Safety.SafetyView.CancelContactForm | views/SafetyView.tsx:190 | the contact form closes; its draft, the open section and the passport and accommodation drafts stay |
| Safety.SafetyView.SetContactName | views/SafetyView.tsx:186 | only the contact draft's name changes; the form's visibility, the open section and the passport and accommodation drafts stay |
| Safety.SafetyView.SetContactPhone | views/SafetyView.tsx:187 | only the contact draft's phone changes; the form's visibility, the open section and the passport and accommodation drafts stay |
| Safety.SafetyView.OpenContact | views/SafetyView.tsx:88-99 | the contact form opens on a clicked contact's fields, or empty |
| Safety.SafetyView.SaveContact | views/SafetyView.tsx:49-67 | no change without name and phone; a draft with an id replaces the contacts with that id (same count); one without is appended; the passport and accommodation drafts and the open section stay |
| Safety.SafetyView.DeleteContact | views/SafetyView.tsx:69-71 | contacts with the id are removed; passport and accommodation stay |
| Safety.SafetyView.DeleteOpenContact | views/SafetyView.tsx:184 | the open contact's id is removed and the form closes; trips, itinerary, memos, moods the open section and the passport and accommodation drafts stay |
| Safety.DeleteThenResave | views/SafetyView.tsx:58-71 | after deleting the open contact, reopening the form and saving leaves the contact deleted |
| MoodCapture.MoodView.constructor | views/MoodView.tsx:13-15 | nothing is selected, the note is empty and the editor is closed |
| MoodCapture.MoodView.SelectMood | views/MoodView.tsx:60 | the mood is selected |
| MoodCapture.MoodView.SetNote | views/MoodView.tsx:75 | the note changes |
| MoodCapture.MoodView.SaveToday | views/MoodView.tsx:25-37 | without a selected mood nothing changes; otherwise the entry for today goes first and the capture clears |
| MoodCapture.MoodView.OpenEntry | views/MoodView.tsx:96 | the editor opens on the entry |
| MoodCapture.MoodView.CloseEditor | views/MoodView.tsx:121 | the editor closes |
| MoodCapture.MoodView.EditMood | views/MoodView.tsx:128 | the entry's mood changes; its id, date and note stay |
| MoodCapture.MoodView.EditNote | views/MoodView.tsx:138 | the entry's note changes; its id, date and mood stay |
| MoodCapture.MoodView.UpdateEntry | views/MoodView.tsx:39-43 | with no entry open nothing changes; otherwise the entry replaces its id and the editor closes |
| MoodCapture.MoodView.DeleteEntry | views/MoodView.tsx:143 | the open entry's id is removed and the editor closes |
| MoodCapture.EditAndSave | views/MoodView.tsx:39-43 | editing an entry's mood and note and saving replaces it, keeping its id and date |

## Left out

- **Persistence, migration, header.** The running code has no local-storage persistence, no
  accommodation-shape migration and no app-header state: `App.tsx` keeps plain component
  state seeded with sample data, and passes no header props. None of the three is in the
  modelled code.
- **Accommodation.** It is one `{name, address, note}` record, as `App.tsx:63-67` stores it
  and `views/SafetyView.tsx:166-168` edits it. `types.ts:48-61` declares an array of richer
  records (id, name, address, start and end dates, check-in time, note) that nothing in the code builds or sorts; that
  declared shape is not modelled.
- **Header editor.** The trip list's header settings (`views/ItineraryView.tsx:96`) call a
  handler the top-level component never supplies. They are not modelled.
- **Rendering.** Navigation, `components/Navigation.tsx`, `views/MapView.tsx`, the clipboard
  copy, the passport show/hide toggle and the style helpers of the memo cards are
  presentation only.
- **Trip-list order.** `views/ItineraryView.tsx:172` sorts the trips newest first, in place,
  during rendering. This reorders the store's array, which the model does not capture.
- **File I/O.** The file reader, `JSON.parse`, `JSON.stringify`, the download link and the
  alerts are I/O. The parse result is the `ImportInput` parameter, and the notice is the
  returned `ImportOutcome`. The parsed document's fields are assumed to have the right
  shapes; a field that is present but ill-typed is not modelled.
- **Clock.** `Date.now()` and `new Date().toISOString()` are parameters. The timezone
  behaviour of `TripStatusOf`'s "today" (a UTC date) is not modelled.
- **Date arithmetic.** `Itinerary.TripDetail.AddDay` takes the next-day date arithmetic as a
  function parameter, with its UTC/local-time behaviour. It assumes that reformatting a
  trip's start date gives back the same string.
- Itinerary.TripDetail.AddDay: when the date it starts from (the trip's start date, or the
  last day's date) is empty or not a date, `toISOString` throws a RangeError in the source
  and no day is added. The model's date function is total, so it appends a day dated by
  that function's result.
- **String order.** `Text.Lt` compares code points. `localeCompare` and the UTF-16 order of
  `<` agree with it only on the ASCII digit strings the app compares. Unicode collation is
  not modelled.
- **Aliasing.** `views/ItineraryView.tsx:266-269` and `views/ItineraryView.tsx:278` write into
  the day object they share with the previous state. The model builds a new day value, so that sharing is not modelled.
- **Dropped fields.** `mapLink` is never read or written and is dropped. The memo field `type`
  is called `kind`, because `type` is a Dafny keyword.
- **Copied inputs.** The `TimeSelector` effect that copies its value into the editor (its
  rewrite of the time is `Text.SelectorTime`; the editor's methods take the form after it), the
  date inputs of the trip edit form, and the typing into the passport and accommodation drafts
  are represented by the values they produce: method parameters and public fields.

=== FILE: app.dfy ===
/**
 * The application store: the five collections the top-level component keeps in state, the
 * handlers the views call to replace them, and the backup document written by export and
 * merged back by import.
 */
module App {
  import opened Common
  import opened Types
  import opened Collections

  /** A snapshot of the five collections. */
  datatype AppState = AppState(
    trips: seq<Trip>,
    itineraryData: map<string, seq<DayItinerary>>,
    memos: seq<MemoItem>,
    safetyData: SafetyData,
    moods: seq<MoodEntry>)

  /** A parsed backup file. Any field may be missing; only `trips` and `itineraryData` are required. */
  datatype Document = Document(
    trips: Option<seq<Trip>>,
    itineraryData: Option<map<string, seq<DayItinerary>>>,
    memos: Option<seq<MemoItem>>,
    safetyData: Option<SafetyData>,
    moods: Option<seq<MoodEntry>>,
    exportDate: Option<string>,
    appVersion: Option<string>)

  /** What the file reader hands to the import handler: text that failed to parse, or a document.
      Text that parses to `null` (or another value whose field access throws) also counts as
      `Unparsable`, since the same catch block handles it. */
  datatype ImportInput = Unparsable | Parsed(doc: Document)

  /** The three notices the import handler can end with. */
  datatype ImportOutcome = Restored | FormatError | ReadFailure

  const BackupVersion := "1.0"

  /** The day every new trip starts with. */
  function FirstDay(t: Trip): (d: DayItinerary)
    ensures d.id == "d1-" + t.id
    ensures d.date == t.startDate && d.dayLabel == "Day 1" && d.items == []
  {
    DayItinerary("d1-" + t.id, t.startDate, "Day 1", [])
  }

  /** The backup document: all five collections, the export time and the format version. */
  function ExportDocument(s: AppState, exportDate: string): (d: Document)
    ensures d.trips.Some? && d.itineraryData.Some? && d.memos.Some? && d.safetyData.Some? && d.moods.Some?
    ensures d.appVersion == Some(BackupVersion) && d.exportDate == Some(exportDate)
  {
    Document(Some(s.trips), Some(s.itineraryData), Some(s.memos), Some(s.safetyData), Some(s.moods),
             Some(exportDate), Some(BackupVersion))
  }

  /** The notice an import ends with: a document is accepted only when both required fields are present. */
  function ImportOutcomeOf(input: ImportInput): (o: ImportOutcome)
    ensures o == ReadFailure <==> input.Unparsable?
    ensures o == Restored <==> input.Parsed? && input.doc.trips.Some? && input.doc.itineraryData.Some?
  {
    match input
    case Unparsable => ReadFailure
    case Parsed(doc) => if doc.trips.Some? && doc.itineraryData.Some? then Restored else FormatError
  }

  /** The collections after an import: a sparse merge of an accepted document onto the current state. */
  function ApplyImport(s: AppState, input: ImportInput): (r: AppState)
    ensures ImportOutcomeOf(input) != Restored ==> r == s
    ensures ImportOutcomeOf(input) == Restored ==>
      && r.trips == input.doc.trips.value
      && r.itineraryData == input.doc.itineraryData.value
      && r.memos == input.doc.memos.GetOr(s.memos)
      && r.safetyData == input.doc.safetyData.GetOr(s.safetyData)
      && r.moods == input.doc.moods.GetOr(s.moods)
  {
    match input
    case Unparsable => s
    case Parsed(doc) =>
      if doc.trips.Some? && doc.itineraryData.Some? then
        AppState(doc.trips.value, doc.itineraryData.value, doc.memos.GetOr(s.memos),
                 doc.safetyData.GetOr(s.safetyData), doc.moods.GetOr(s.moods))
      else s
  }

  /** Importing an exported document restores exactly the exported collections, whatever the state before. */
  lemma ExportImportRoundTrip(exported: AppState, current: AppState, exportDate: string)
    ensures ImportOutcomeOf(Parsed(ExportDocument(exported, exportDate))) == Restored
    ensures ApplyImport(current, Parsed(ExportDocument(exported, exportDate))) == exported
  {
  }

  /** Importing the same input twice is the same as importing it once. */
  lemma ImportIdempotent(s: AppState, input: ImportInput)
    ensures ApplyImport(ApplyImport(s, input), input) == ApplyImport(s, input)
  {
  }

  class Store {
    var trips: seq<Trip>
    var itineraryData: map<string, seq<DayItinerary>>
    var memos: seq<MemoItem>
    var safetyData: SafetyData
    var moods: seq<MoodEntry>

    function State(): AppState
      reads this
    {
      AppState(trips, itineraryData, memos, safetyData, moods)
    }

    /** The store starts from the built-in sample collections, given here as `initial`. */
    constructor (initial: AppState)
      ensures State() == initial
    {
      trips := initial.trips;
      itineraryData := initial.itineraryData;
      memos := initial.memos;
      safetyData := initial.safetyData;
      moods := initial.moods;
    }

    /** A new trip goes last and gets its own one-day itinerary. */
    method AddTrip(t: Trip)
      modifies this
      ensures trips == old(trips) + [t]
      ensures itineraryData == old(itineraryData)[t.id := [FirstDay(t)]]
      ensures memos == old(memos) && safetyData == old(safetyData) && moods == old(moods)
    {
      trips := trips + [t];
      itineraryData := itineraryData[t.id := [FirstDay(t)]];
    }

    /** Every trip with the same id is replaced; order, length and the other trips stay. */
    method UpdateTrip(t: Trip)
      modifies this
      ensures trips == ReplaceById(old(trips), TripId, t)
      ensures |trips| == |old(trips)|
      ensures forall i :: 0 <= i < |trips| ==> trips[i] == if old(trips)[i].id == t.id then t else old(trips)[i]
      ensures itineraryData == old(itineraryData) && memos == old(memos)
      ensures safetyData == old(safetyData) && moods == old(moods)
    {
      trips := ReplaceById(trips, TripId, t);
    }

    /** Deleting a trip cascades to its itinerary; other trips and other itineraries stay. */
    method DeleteTrip(tripId: string)
      modifies this
      ensures trips == RemoveById(old(trips), TripId, tripId)
      ensures forall i :: 0 <= i < |trips| ==> trips[i].id != tripId
      ensures itineraryData == old(itineraryData) - {tripId}
      ensures memos == old(memos) && safetyData == old(safetyData) && moods == old(moods)
    {
      trips := RemoveById(trips, TripId, tripId);
      var remaining := itineraryData;
      remaining := remaining - {tripId};
      itineraryData := remaining;
    }

    /** Replaces one trip's day list and nothing else. */
    method UpdateItinerary(tripId: string, days: seq<DayItinerary>)
      modifies this
      ensures itineraryData == old(itineraryData)[tripId := days]
      ensures trips == old(trips) && memos == old(memos)
      ensures safetyData == old(safetyData) && moods == old(moods)
    {
      itineraryData := itineraryData[tripId := days];
    }

    method AddMemo(memo: MemoItem)
      modifies this
      ensures memos == old(memos) + [memo]
      ensures trips == old(trips) && itineraryData == old(itineraryData)
      ensures safetyData == old(safetyData) && moods == old(moods)
    {
      memos := memos + [memo];
    }

    method UpdateMemo(memo: MemoItem)
      modifies this
      ensures memos == ReplaceById(old(memos), MemoId, memo)
      ensures trips == old(trips) && itineraryData == old(itineraryData)
      ensures safetyData == old(safetyData) && moods == old(moods)
    {
      memos := ReplaceById(memos, MemoId, memo);
    }

    method DeleteMemo(id: string)
      modifies this
      ensures memos == RemoveById(old(memos), MemoId, id)
      ensures trips == old(trips) && itineraryData == old(itineraryData)
      ensures safetyData == old(safetyData) && moods == old(moods)
    {
      memos := RemoveById(memos, MemoId, id);
    }

    method UpdateSafety(data: SafetyData)
      modifies this
      ensures safetyData == data
      ensures trips == old(trips) && itineraryData == old(itineraryData)
      ensures memos == old(memos) && moods == old(moods)
    {
      safetyData := data;
    }

    /** Moods are kept newest first. */
    method AddMood(mood: MoodEntry)
      modifies this
      ensures moods == [mood] + old(moods)
      ensures trips == old(trips) && itineraryData == old(itineraryData)
      ensures memos == old(memos) && safetyData == old(safetyData)
    {
      moods := [mood] + moods;
    }

    method UpdateMood(mood: MoodEntry)
      modifies this
      ensures moods == ReplaceById(old(moods), MoodId, mood)
      ensures trips == old(trips) && itineraryData == old(itineraryData)
      ensures memos == old(memos) && safetyData == old(safetyData)
    {
      moods := ReplaceById(moods, MoodId, mood);
    }

    method DeleteMood(id: string)
      modifies this
      ensures moods == RemoveById(old(moods), MoodId, id)
      ensures trips == old(trips) && itineraryData == old(itineraryData)
      ensures memos == old(memos) && safetyData == old(safetyData)
    {
      moods := RemoveById(moods, MoodId, id);
    }

    /** Reads an accepted document into the store field by field; any other input changes nothing. */
    method Import(input: ImportInput) returns (outcome: ImportOutcome)
      modifies this
      ensures outcome == ImportOutcomeOf(input)
      ensures State() == ApplyImport(old(State()), input)
    {
      if input.Unparsable? {
        return ReadFailure;
      }
      var doc := input.doc;
      if doc.trips.Some? && doc.itineraryData.Some? {
        trips := doc.trips.value;
        itineraryData := doc.itineraryData.value;
        if doc.memos.Some? { memos := doc.memos.value; }
        if doc.safetyData.Some? { safetyData := doc.safetyData.value; }
        if doc.moods.Some? { moods := doc.moods.value; }
        outcome := Restored;
      } else {
        outcome := FormatError;
      }
    }
  }

  /** Two moods added in turn: the later one comes first. */
  method AddTwoMoods(store: Store, m1: MoodEntry, m2: MoodEntry)
    modifies store
    ensures store.moods == [m2, m1] + old(store.moods)
  {
    store.AddMood(m1);
    store.AddMood(m2);
  }

  /** A trip added and then deleted leaves no itinerary behind under its id. */
  method AddThenDeleteTrip(store: Store, t: Trip)
    modifies store
    ensures t.id !in store.itineraryData
    ensures store.itineraryData == old(store.itineraryData) - {t.id}
    ensures forall i :: 0 <= i < |store.trips| ==> store.trips[i].id != t.id
  {
    store.AddTrip(t);
    store.DeleteTrip(t.id);
  }
}

=== FILE: collections.dfy ===
/**
 * The id-keyed list operations every handler of the app is built from: `map` that swaps in a
 * record with a matching id, `filter` that drops the records with an id, and `findIndex`.
 * The key function stands for the record's `id` field.
 */
module Collections {
  import opened Common

  /** `xs.map(e => key(e) === key(x) ? x : e)`. */
  function ReplaceById<T>(xs: seq<T>, key: T -> string, x: T): (r: seq<T>)
    ensures |r| == |xs|
    ensures forall i :: 0 <= i < |xs| && key(xs[i]) == key(x) ==> r[i] == x
    ensures forall i :: 0 <= i < |xs| && key(xs[i]) != key(x) ==> r[i] == xs[i]
  {
    if |xs| == 0 then [] else [if key(xs[0]) == key(x) then x else xs[0]] + ReplaceById(xs[1..], key, x)
  }

  /** With no record carrying x's id, replacing is a no-op. */
  lemma ReplaceByIdAbsent<T>(xs: seq<T>, key: T -> string, x: T)
    requires forall i :: 0 <= i < |xs| ==> key(xs[i]) != key(x)
    ensures ReplaceById(xs, key, x) == xs
  {
  }

  /** Replacing keeps the ids, position by position: no record appears or disappears by id. */
  lemma {:induction false} ReplaceByIdKeys<T>(xs: seq<T>, key: T -> string, x: T)
    ensures KeysOf(ReplaceById(xs, key, x), key) == KeysOf(xs, key)
  {
    var r := ReplaceById(xs, key, x);
    assert forall i :: 0 <= i < |xs| ==> KeysOf(r, key)[i] == key(r[i]) == key(xs[i]) == KeysOf(xs, key)[i];
  }

  /** The ids of a list, in order. */
  function KeysOf<T>(xs: seq<T>, key: T -> string): (ks: seq<string>)
    ensures |ks| == |xs|
    ensures forall i :: 0 <= i < |xs| ==> ks[i] == key(xs[i])
  {
    if |xs| == 0 then [] else [key(xs[0])] + KeysOf(xs[1..], key)
  }

  lemma KeysOfIndex<T>(xs: seq<T>, key: T -> string, k: string)
    ensures k in KeysOf(xs, key) <==> exists i :: 0 <= i < |xs| && key(xs[i]) == k
  {
    var ks := KeysOf(xs, key);
    if k in ks {
      var i :| 0 <= i < |ks| && ks[i] == k;
      assert key(xs[i]) == k;
    }
  }

  /** `xs.filter(e => key(e) !== id)`. */
  function RemoveById<T>(xs: seq<T>, key: T -> string, id: string): (r: seq<T>)
    ensures |r| <= |xs|
    ensures forall i :: 0 <= i < |r| ==> key(r[i]) != id
  {
    if |xs| == 0 then []
    else
      (if key(xs[0]) == id then [] else [xs[0]]) + RemoveById(xs[1..], key, id)
  }

  /** Removing drops every record with the id and keeps every other record as often as it occurred. */
  lemma {:induction false} RemoveByIdCount<T(!new)>(xs: seq<T>, key: T -> string, id: string)
    ensures forall e :: multiset(RemoveById(xs, key, id))[e] == if key(e) == id then 0 else multiset(xs)[e]
  {
    if |xs| > 0 {
      RemoveByIdCount(xs[1..], key, id);
      assert xs == [xs[0]] + xs[1..];
    }
  }

  /** Removing distributes over concatenation: the survivors keep their relative order. */
  lemma {:induction false} RemoveByIdAppend<T(!new)>(a: seq<T>, b: seq<T>, key: T -> string, id: string)
    ensures RemoveById(a + b, key, id) == RemoveById(a, key, id) + RemoveById(b, key, id)
  {
    if |a| > 0 {
      var head := if key(a[0]) == id then [] else [a[0]];
      assert (a + b)[0] == a[0] && (a + b)[1..] == a[1..] + b;
      RemoveByIdAppend(a[1..], b, key, id);
      calc {
        RemoveById(a + b, key, id);
        head + RemoveById(a[1..] + b, key, id);
        head + (RemoveById(a[1..], key, id) + RemoveById(b, key, id));
        (head + RemoveById(a[1..], key, id)) + RemoveById(b, key, id);
        RemoveById(a, key, id) + RemoveById(b, key, id);
      }
    } else {
      assert a + b == b;
    }
  }

  /** With no record carrying the id, removing is a no-op. */
  lemma {:induction false} RemoveByIdAbsent<T(!new)>(xs: seq<T>, key: T -> string, id: string)
    requires forall i :: 0 <= i < |xs| ==> key(xs[i]) != id
    ensures RemoveById(xs, key, id) == xs
  {
    if |xs| > 0 {
      RemoveByIdAbsent(xs[1..], key, id);
      assert xs == [xs[0]] + xs[1..];
    }
  }

  /** `xs.findIndex(e => key(e) === id)`, with None for JavaScript's -1. */
  function FindIndex<T>(xs: seq<T>, key: T -> string, id: string): (r: Option<nat>)
    ensures r.Some? ==> r.value < |xs| && key(xs[r.value]) == id
    ensures r.Some? ==> forall j :: 0 <= j < r.value ==> key(xs[j]) != id
    ensures r.None? ==> forall j :: 0 <= j < |xs| ==> key(xs[j]) != id
  {
    if |xs| == 0 then None
    else if key(xs[0]) == id then Some(0)
    else
      match FindIndex(xs[1..], key, id)
      case None => None
      case Some(i) => Some(i + 1)
  }

  /** `xs.find(e => key(e) === id)`: the first record with the id. */
  function Find<T>(xs: seq<T>, key: T -> string, id: string): (r: Option<T>)
    ensures r.None? <==> forall j :: 0 <= j < |xs| ==> key(xs[j]) != id
    ensures r.Some? ==> key(r.value) == id
    ensures r.Some? ==> exists j :: 0 <= j < |xs| && xs[j] == r.value
    ensures r.Some? ==> FindIndex(xs, key, id).Some? && r.value == xs[FindIndex(xs, key, id).value]
  {
    match FindIndex(xs, key, id)
    case None => None
    case Some(i) => Some(xs[i])
  }
}

=== FILE: common.dfy ===
/** Values that may be absent: the optional fields of the app's records and drafts. */
module Common {

  datatype Option<+T> = None | Some(value: T) {
    function GetOr(default: T): T {
      match this
      case Some(v) => v
      case None => default
    }
  }

  /** JavaScript truthiness of an optional string: present and non-empty. */
  predicate Truthy(s: Option<string>) {
    s.Some? && s.value != ""
  }

  /** The `s || fallback` idiom on a plain string. */
  function OrElse(s: string, fallback: string): (r: string)
    ensures s != "" ==> r == s
    ensures s == "" ==> r == fallback
  {
    if s != "" then s else fallback
  }
}

=== FILE: itinerary.dfy ===
/**
 * The itinerary screens: trip status, the new-trip form, the item editor, ordering a day's
 * items by time, and the trip-detail handlers that edit a trip's days through the store.
 */
module Itinerary {
  import opened Common
  import opened Text
  import opened Types
  import opened Collections
  import App

  // ---------------------------------------------------------------- trip status

  datatype TripStatus = PLANNING | ONGOING | COMPLETED

  /** The status of a trip on the day `today` (a `YYYY-MM-DD` string), by string comparison. */
  function TripStatusOf(startDate: string, endDate: string, today: string): (st: TripStatus)
    ensures st == PLANNING <==> Lt(today, startDate)
    ensures st == ONGOING <==> Le(startDate, today) && Le(today, endDate)
    ensures st == COMPLETED <==> Le(startDate, today) && Lt(endDate, today)
  {
    LtIffNotLe(today, startDate);
    LtIffNotLe(endDate, today);
    if Lt(today, startDate) then PLANNING
    else if Lt(endDate, today) then COMPLETED
    else ONGOING
  }

  /** On well-formed dates the string comparisons are calendar comparisons. */
  lemma TripStatusByCalendar(start: Date, end: Date, today: Date)
    requires start.Valid() && end.Valid() && today.Valid()
    ensures TripStatusOf(start.Iso(), end.Iso(), today.Iso()) == PLANNING <==> today.Before(start)
    ensures TripStatusOf(start.Iso(), end.Iso(), today.Iso()) == COMPLETED <==> !today.Before(start) && end.Before(today)
    ensures TripStatusOf(start.Iso(), end.Iso(), today.Iso()) == ONGOING <==> !today.Before(start) && !end.Before(today)
  {
    IsoOrder(today, start);
    IsoOrder(end, today);
  }

  // ---------------------------------------------------------------- new trip

  /** The new-trip form's three inputs. */
  datatype TripForm = TripForm(name: string, startDate: string, endDate: string)

  const EmptyTripForm := TripForm("", "", "")

  /** The trip a form creates; `now` is the timestamp used as its id. */
  function CreateTrip(form: TripForm, now: string): (r: Option<Trip>)
    ensures r.None? <==> form.name == "" || form.startDate == ""
    ensures r.Some? ==> r.value.id == now && r.value.name == form.name && r.value.startDate == form.startDate
    ensures r.Some? && form.endDate != "" ==> r.value.endDate == form.endDate
    ensures r.Some? && form.endDate == "" ==> r.value.endDate == form.startDate
  {
    if form.name == "" || form.startDate == "" then None
    else Some(Trip(now, form.name, form.startDate, OrElse(form.endDate, form.startDate)))
  }

  /** A trip created without an end date is a one-day trip, ongoing exactly on its start date. */
  lemma OneDayTrip(name: string, start: string, now: string, today: string)
    requires name != "" && start != ""
    ensures CreateTrip(TripForm(name, start, ""), now).Some?
    ensures var t := CreateTrip(TripForm(name, start, ""), now).value;
      TripStatusOf(t.startDate, t.endDate, today) == ONGOING <==> today == start
  {
    if Le(start, today) && Le(today, start) {
      LeAntisymmetric(start, today);
    }
    LeRefl(start);
  }

  /** The trip list: the new-trip form and the backup menu. */
  class TripList {
    const store: App.Store
    var isCreating: bool
    var form: TripForm

    constructor (store: App.Store)
      ensures this.store == store && !isCreating && form == EmptyTripForm
    {
      this.store := store;
      isCreating := false;
      form := EmptyTripForm;
    }

    /** The create button: a complete form adds a trip (and its first day) and clears the form. */
    method Create(now: string)
      modifies this, store
      ensures CreateTrip(old(form), now).None? ==>
        form == old(form) && isCreating == old(isCreating) && store.State() == old(store.State())
      ensures CreateTrip(old(form), now).Some? ==>
        var t := CreateTrip(old(form), now).value;
        && store.trips == old(store.trips) + [t]
        && store.itineraryData == old(store.itineraryData)[t.id := [App.FirstDay(t)]]
        && store.memos == old(store.memos) && store.safetyData == old(store.safetyData)
        && store.moods == old(store.moods)
        && form == EmptyTripForm && !isCreating
    {
      var created := CreateTrip(form, now);
      if created.None? {
        return;
      }
      store.AddTrip(created.value);
      isCreating := false;
      form := EmptyTripForm;
    }

    /** Choosing a backup file: it is imported only if the user confirms the overwrite. */
    method ChooseImportFile(confirmed: bool, input: App.ImportInput) returns (outcome: Option<App.ImportOutcome>)
      modifies store
      ensures !confirmed ==> outcome.None? && store.State() == old(store.State())
      ensures confirmed ==> outcome == Some(App.ImportOutcomeOf(input))
      ensures confirmed ==> store.State() == App.ApplyImport(old(store.State()), input)
    {
      if !confirmed {
        return None;
      }
      var o := store.Import(input);
      outcome := Some(o);
    }
  }

  // ---------------------------------------------------------------- item editor

  /** The item editor's four inputs. */
  datatype ItemForm = ItemForm(time: string, title: string, location: string, note: string)

  /** The form the editor opens with, for an existing item or for a new one. */
  function EditorForm(item: Option<ItineraryItem>): (f: ItemForm)
    ensures item.None? ==> f == ItemForm("10:00", "", "", "")
    ensures item.Some? && item.value.time != "" ==> f.time == item.value.time
    ensures item.Some? && item.value.time == "" ==> f.time == "10:00"
    ensures item.Some? ==> f.title == item.value.title && f.location == item.value.location
    ensures item.Some? && item.value.note.Some? ==> f.note == item.value.note.value
    ensures item.Some? && item.value.note.None? ==> f.note == ""
  {
    match item
    case None => ItemForm("10:00", "", "", "")
    case Some(it) => ItemForm(OrElse(it.time, "10:00"), it.title, it.location, it.note.GetOr(""))
  }

  /** The editor's save: the item handed on, if there is a title or a location. */
  function EditorSave(item: Option<ItineraryItem>, form: ItemForm, now: string): (r: Option<ItineraryItem>)
    ensures r.None? <==> form.title == "" && form.location == ""
    ensures r.Some? ==> r.value.title != ""
    ensures r.Some? && form.title == "" ==> r.value.title == form.location
    ensures r.Some? && form.title != "" ==> r.value.title == form.title
    ensures r.Some? ==> r.value.time == form.time && r.value.location == form.location && r.value.note == Some(form.note)
    ensures r.Some? && item.Some? && item.value.id != "" ==> r.value.id == item.value.id
    ensures r.Some? && (item.None? || item.value.id == "") ==> r.value.id == now
    ensures r.Some? ==> (r.value.isCompleted <==> item.Some? && item.value.isCompleted)
  {
    if form.title == "" && form.location == "" then None
    else
      var id := if item.Some? then OrElse(item.value.id, now) else now;
      var done := item.Some? && item.value.isCompleted;
      Some(ItineraryItem(id, form.time, OrElse(form.title, form.location), form.location, Some(form.note), done))
  }

  /** Opening an item and saving it untouched hands back the same item, once the time
      selector has written its rewrite of the time into the form, for every item whose time
      that rewrite keeps (every time the selector's menus produce, by SelectorKeepsMenuTimes). */
  lemma EditorUntouched(it: ItineraryItem, now: string)
    requires it.id != "" && it.title != "" && it.note.Some?
    requires SelectorTime(it.time) == it.time
    ensures var f := EditorForm(Some(it)); EditorSave(Some(it), f.(time := SelectorTime(f.time)), now) == Some(it)
  {
  }

  // ---------------------------------------------------------------- ordering by time

  /** Adjacent items are in time order (ordinal string order, right for zero-padded `HH:MM`). */
  predicate SortedByTime(items: seq<ItineraryItem>)
  {
    forall i :: 0 <= i < |items| - 1 ==> Le(items[i].time, items[i + 1].time)
  }

  /** Every earlier item is no later than every later one. */
  lemma {:induction false} SortedByTimePairwise(items: seq<ItineraryItem>, i: nat, j: nat)
    requires SortedByTime(items) && i <= j < |items|
    ensures Le(items[i].time, items[j].time)
    decreases j - i
  {
    if i == j {
      LeRefl(items[i].time);
    } else {
      SortedByTimePairwise(items, i + 1, j);
      LeTransitive(items[i].time, items[i + 1].time, items[j].time);
    }
  }

  /** Inserts x behind every item of a sorted list that is no later than x. */
  function InsertByTime(sorted: seq<ItineraryItem>, x: ItineraryItem): (r: seq<ItineraryItem>)
    ensures |r| == |sorted| + 1
  {
    if |sorted| == 0 || Le(sorted[|sorted| - 1].time, x.time) then sorted + [x]
    else InsertByTime(sorted[..|sorted| - 1], x) + [sorted[|sorted| - 1]]
  }

  /** A stable insertion sort by time, as the day's `sort` by `time.localeCompare` leaves the items. */
  function SortByTime(items: seq<ItineraryItem>): (r: seq<ItineraryItem>)
    ensures |r| == |items|
  {
    if |items| == 0 then [] else InsertByTime(SortByTime(items[..|items| - 1]), items[|items| - 1])
  }

  lemma {:induction false} InsertByTimeCount(s: seq<ItineraryItem>, x: ItineraryItem)
    ensures multiset(InsertByTime(s, x)) == multiset(s) + multiset{x}
  {
    if |s| > 0 && !Le(s[|s| - 1].time, x.time) {
      InsertByTimeCount(s[..|s| - 1], x);
      assert s == s[..|s| - 1] + [s[|s| - 1]];
    }
  }

  lemma {:induction false} InsertByTimeSorted(s: seq<ItineraryItem>, x: ItineraryItem)
    requires SortedByTime(s)
    ensures SortedByTime(InsertByTime(s, x))
    ensures var r := InsertByTime(s, x);
      r[|r| - 1] == x || (|s| > 0 && r[|r| - 1] == s[|s| - 1])
  {
    if |s| > 0 && !Le(s[|s| - 1].time, x.time) {
      var front := s[..|s| - 1];
      InsertByTimeSorted(front, x);
      var r' := InsertByTime(front, x);
      LeTotal(s[|s| - 1].time, x.time);
      var r := r' + [s[|s| - 1]];
      assert Le(r'[|r'| - 1].time, s[|s| - 1].time);
      assert forall i :: 0 <= i < |r| - 1 ==> Le(r[i].time, r[i + 1].time) by {
        forall i | 0 <= i < |r| - 1 ensures Le(r[i].time, r[i + 1].time) {
          if i < |r'| - 1 {
            assert r[i] == r'[i] && r[i + 1] == r'[i + 1];
          }
        }
      }
    } else if |s| > 0 {
      var r := s + [x];
      assert forall i :: 0 <= i < |r| - 1 ==> Le(r[i].time, r[i + 1].time) by {
        forall i | 0 <= i < |r| - 1 ensures Le(r[i].time, r[i + 1].time) {
          if i < |s| - 1 {
            assert r[i] == s[i] && r[i + 1] == s[i + 1];
          }
        }
      }
    }
  }

  /** Sorting by time yields a time-ordered arrangement of exactly the same items. */
  lemma {:induction false} SortByTimeCorrect(items: seq<ItineraryItem>)
    ensures SortedByTime(SortByTime(items))
    ensures multiset(SortByTime(items)) == multiset(items)
  {
    if |items| > 0 {
      var front := items[..|items| - 1];
      SortByTimeCorrect(front);
      InsertByTimeSorted(SortByTime(front), items[|items| - 1]);
      InsertByTimeCount(SortByTime(front), items[|items| - 1]);
      assert items == front + [items[|items| - 1]];
    }
  }

  /** Items already in time order are left as they are. */
  lemma {:induction false} SortByTimeOfSorted(items: seq<ItineraryItem>)
    requires SortedByTime(items)
    ensures SortByTime(items) == items
  {
    if |items| > 0 {
      var front := items[..|items| - 1];
      assert SortedByTime(front);
      SortByTimeOfSorted(front);
      if |front| > 0 {
        assert Le(front[|front| - 1].time, items[|items| - 1].time);
      }
      assert items == front + [items[|items| - 1]];
    }
  }

  /** The items of a list at one time, in list order. */
  function ItemsAt(items: seq<ItineraryItem>, t: string): (r: seq<ItineraryItem>)
    ensures |r| <= |items|
    ensures forall i :: 0 <= i < |r| ==> r[i].time == t
  {
    if |items| == 0 then []
    else ItemsAt(items[..|items| - 1], t) + (if items[|items| - 1].time == t then [items[|items| - 1]] else [])
  }

  /** Insertion puts x behind every item at x's own time. */
  lemma {:induction false} InsertByTimeStable(s: seq<ItineraryItem>, x: ItineraryItem, t: string)
    ensures ItemsAt(InsertByTime(s, x), t) == ItemsAt(s, t) + (if x.time == t then [x] else [])
  {
    if |s| == 0 || Le(s[|s| - 1].time, x.time) {
      assert (s + [x])[..|s|] == s;
    } else {
      var front, last := s[..|s| - 1], s[|s| - 1];
      InsertByTimeStable(front, x, t);
      var r' := InsertByTime(front, x);
      assert (r' + [last])[..|r'|] == r';
      LeRefl(x.time);
      assert !(last.time == t && x.time == t);
    }
  }

  /** The sort is stable: items at the same time keep their input order. */
  lemma {:induction false} SortByTimeStable(items: seq<ItineraryItem>, t: string)
    ensures ItemsAt(SortByTime(items), t) == ItemsAt(items, t)
  {
    if |items| > 0 {
      var front := items[..|items| - 1];
      SortByTimeStable(front, t);
      InsertByTimeStable(SortByTime(front), items[|items| - 1], t);
    }
  }

  lemma SortByTimeStep(input: seq<ItineraryItem>, i: nat)
    requires i < |input|
    ensures SortByTime(input[..i + 1]) == InsertByTime(SortByTime(input[..i]), input[i])
  {
    assert input[..i + 1][..i] == input[..i];
  }

  /** One shift of the insertion loop: x moves in front of an item later than it. */
  lemma InsertShift(sorted: seq<ItineraryItem>, x: ItineraryItem, j: nat)
    requires 0 < j <= |sorted| && !Le(sorted[j - 1].time, x.time)
    ensures InsertByTime(sorted[..j], x) + sorted[j..] == InsertByTime(sorted[..j - 1], x) + sorted[j - 1..]
  {
    assert sorted[..j][..j - 1] == sorted[..j - 1];
    assert sorted[j - 1..] == [sorted[j - 1]] + sorted[j..];
  }

  /** The insertion loop stops: x goes right here. */
  lemma InsertStop(sorted: seq<ItineraryItem>, x: ItineraryItem, j: nat)
    requires j <= |sorted| && (j == 0 || Le(sorted[j - 1].time, x.time))
    ensures InsertByTime(sorted[..j], x) == sorted[..j] + [x]
  {
  }

  /** Moves a[i] leftwards past the items of the sorted prefix a[..i] that are later than it. */
  method InsertIntoPrefix(a: array<ItineraryItem>, i: nat)
    requires i < a.Length
    modifies a
    ensures a[..i + 1] == InsertByTime(old(a[..i]), old(a[i]))
    ensures a[i + 1..] == old(a[i + 1..])
  {
    var x := a[i];
    ghost var sorted := a[..i];
    var j := i;
    while j > 0 && !Le(a[j - 1].time, x.time)
      invariant 0 <= j <= i
      invariant a[..j] == sorted[..j]
      invariant a[j + 1..i + 1] == sorted[j..]
      invariant a[i + 1..] == old(a[i + 1..])
      invariant InsertByTime(sorted, x) == InsertByTime(sorted[..j], x) + sorted[j..]
    {
      InsertShift(sorted, x, j);
      a[j] := a[j - 1];
      j := j - 1;
    }
    InsertStop(sorted, x, j);
    a[j] := x;
    assert a[..i + 1] == a[..j] + [a[j]] + a[j + 1..i + 1];
  }

  /** Sorts a day's items in place by time, stably. */
  method SortItemsByTime(a: array<ItineraryItem>)
    modifies a
    ensures a[..] == SortByTime(old(a[..]))
  {
    ghost var input := a[..];
    var i := 0;
    while i < a.Length
      invariant 0 <= i <= a.Length
      invariant a[..i] == SortByTime(input[..i])
      invariant a[i..] == input[i..]
    {
      InsertIntoPrefix(a, i);
      SortByTimeStep(input, i);
      i := i + 1;
    }
    assert input[..a.Length] == input;
  }

  /** A day's items after saving `item` into it: an item with the same id is replaced where it
      stands; otherwise the item is added and the whole list is put in time order. */
  function SavedItems(items: seq<ItineraryItem>, item: ItineraryItem): (r: seq<ItineraryItem>)
    ensures FindIndex(items, ItemId, item.id).Some? ==>
      var j := FindIndex(items, ItemId, item.id).value;
      |r| == |items| && r[j] == item && forall k :: 0 <= k < |items| && k != j ==> r[k] == items[k]
    ensures FindIndex(items, ItemId, item.id).None? ==>
      SortedByTime(r) && multiset(r) == multiset(items) + multiset{item}
  {
    match FindIndex(items, ItemId, item.id)
    case Some(j) => items[j := item]
    case None =>
      SortByTimeCorrect(items + [item]);
      SortByTime(items + [item])
  }

  /** Adding to items already in time order inserts the new item behind all no-later ones. */
  lemma SavedIntoSorted(items: seq<ItineraryItem>, item: ItineraryItem)
    requires SortedByTime(items) && FindIndex(items, ItemId, item.id).None?
    ensures SavedItems(items, item) == InsertByTime(items, item)
  {
    SortByTimeOfSorted(items);
    assert (items + [item])[..|items|] == items;
  }

  lemma SaveIntoEmpty(a: ItineraryItem)
    ensures SavedItems([], a) == [a]
  {
    assert SortByTime([a]) == InsertByTime(SortByTime([]), a);
  }

  lemma SaveEarlier(a: ItineraryItem, b: ItineraryItem)
    requires a.id != b.id && !Le(a.time, b.time)
    ensures SavedItems([a], b) == [b, a]
  {
    assert [a] + [b] == [a, b] && [a, b][..1] == [a];
    SortByTimeOfSorted([a]);
    assert SortByTime([a, b]) == InsertByTime([a], b);
    assert InsertByTime([a], b) == InsertByTime([], b) + [a];
  }

  lemma SaveBetween(b: ItineraryItem, a: ItineraryItem, c: ItineraryItem)
    requires c.id != a.id && c.id != b.id
    requires Le(b.time, a.time) && Le(b.time, c.time) && !Le(a.time, c.time)
    ensures SavedItems([b, a], c) == [b, c, a]
  {
    assert SortedByTime([b, a]);
    SavedIntoSorted([b, a], c);
    assert [b, a][..1] == [b];
    assert InsertByTime([b, a], c) == InsertByTime([b], c) + [a];
    assert InsertByTime([b], c) == [b] + [c];
  }

  /** Three items saved at 18:00, 07:00 and 12:30 end up in the order 07:00, 12:30, 18:00. */
  lemma ThreeItemsInTimeOrder(a: ItineraryItem, b: ItineraryItem, c: ItineraryItem)
    requires a.time == "18:00" && b.time == "07:00" && c.time == "12:30"
    requires a.id != b.id && a.id != c.id && b.id != c.id
    ensures SavedItems(SavedItems(SavedItems([], a), b), c) == [b, c, a]
  {
    SaveIntoEmpty(a);
    assert !Le(a.time, b.time);
    SaveEarlier(a, b);
    assert Le(b.time, a.time) && Le(b.time, c.time) && !Le(a.time, c.time);
    SaveBetween(b, a, c);
  }

  // ---------------------------------------------------------------- trip detail

  /** Which day's item the editor is open on, and the item (None for a new one). */
  datatype EditTarget = EditTarget(dayId: string, item: Option<ItineraryItem>)

  /** The trip-detail screen. Its days are the store's itinerary for the trip; every change
      goes back through the store's itinerary handler. */
  class TripDetail {
    const store: App.Store
    const tripId: string
    var selectedDayId: string
    var editing: Option<EditTarget>

    function Days(): seq<DayItinerary>
      reads this, store
    {
      if tripId in store.itineraryData then store.itineraryData[tripId] else []
    }

    function CurrentTrip(): Option<Trip>
      reads this, store
    {
      Find(store.trips, TripId, tripId)
    }

    function CurrentDay(): Option<DayItinerary>
      reads this, store
    {
      Find(Days(), DayId, selectedDayId)
    }

    /** Whenever there are days, the selected one is among them. */
    predicate SelectionValid()
      reads this, store
    {
      |Days()| > 0 ==> CurrentDay().Some?
    }

    constructor (store: App.Store, tripId: string)
      ensures this.store == store && this.tripId == tripId && editing.None?
      ensures SelectionValid()
      ensures selectedDayId == if |Days()| > 0 then Days()[0].id else ""
    {
      this.store := store;
      this.tripId := tripId;
      editing := None;
      var days := if tripId in store.itineraryData then store.itineraryData[tripId] else [];
      selectedDayId := if |days| > 0 then days[0].id else "";
    }

    /** The effect that runs after every render: an absent selection moves to the first day. */
    method RepairSelection()
      modifies this
      ensures SelectionValid()
      ensures old(SelectionValid()) ==> selectedDayId == old(selectedDayId)
      ensures !old(SelectionValid()) ==> selectedDayId == old(Days())[0].id
      ensures editing == old(editing)
    {
      var days := Days();
      if |days| > 0 && Find(days, DayId, selectedDayId).None? {
        selectedDayId := days[0].id;
      }
    }

    /** Saves an item into a day; an unknown day leaves everything, the editor included, as it was. */
    method SaveItem(dayId: string, item: ItineraryItem)
      modifies this, store
      ensures selectedDayId == old(selectedDayId)
      ensures var days := old(Days()); var k := FindIndex(days, DayId, dayId);
        if k.None? then store.State() == old(store.State()) && editing == old(editing)
        else
          && store.itineraryData == old(store.itineraryData)[tripId := days[k.value := days[k.value].(items := SavedItems(days[k.value].items, item))]]
          && store.trips == old(store.trips) && store.memos == old(store.memos)
          && store.safetyData == old(store.safetyData) && store.moods == old(store.moods)
          && editing.None?
    {
      var days := Days();
      var k := FindIndex(days, DayId, dayId);
      if k.None? {
        return;
      }
      var day := days[k.value];
      var j := FindIndex(day.items, ItemId, item.id);
      var items;
      if j.Some? {
        items := day.items[j.value := item];
      } else {
        var n := |day.items|;
        var a := new ItineraryItem[n + 1](i requires 0 <= i <= n => if i < n then day.items[i] else item);
        assert a[..] == day.items + [item];
        SortItemsByTime(a);
        items := a[..];
      }
      store.UpdateItinerary(tripId, days[k.value := day.(items := items)]);
      editing := None;
    }

    /** Deletes the items with an id from one day. */
    method DeleteItem(dayId: string, itemId: string)
      modifies this, store
      ensures selectedDayId == old(selectedDayId)
      ensures var days := old(Days()); var k := FindIndex(days, DayId, dayId);
        if k.None? then store.State() == old(store.State()) && editing == old(editing)
        else
          && store.itineraryData == old(store.itineraryData)[tripId := days[k.value := days[k.value].(items := RemoveById(days[k.value].items, ItemId, itemId))]]
          && store.trips == old(store.trips) && store.memos == old(store.memos)
          && store.safetyData == old(store.safetyData) && store.moods == old(store.moods)
          && editing.None?
    {
      var days := Days();
      var k := FindIndex(days, DayId, dayId);
      if k.None? {
        return;
      }
      var day := days[k.value];
      store.UpdateItinerary(tripId, days[k.value := day.(items := RemoveById(day.items, ItemId, itemId))]);
      editing := None;
    }

    /** Flips the completion of the first item with the id on the selected day, in place. */
    method ToggleComplete(itemId: string)
      modifies this, store
      ensures selectedDayId == old(selectedDayId)
      ensures var days := old(Days()); var k := FindIndex(days, DayId, old(selectedDayId));
        if k.None? || FindIndex(days[k.value].items, ItemId, itemId).None? then
          store.State() == old(store.State()) && editing == old(editing)
        else
          var items := days[k.value].items;
          var j := FindIndex(items, ItemId, itemId).value;
          && store.itineraryData == old(store.itineraryData)[tripId :=
               days[k.value := days[k.value].(items := items[j := items[j].(isCompleted := !items[j].isCompleted)])]]
          && store.trips == old(store.trips) && store.memos == old(store.memos)
          && store.safetyData == old(store.safetyData) && store.moods == old(store.moods)
          && editing.None?
    {
      var current := CurrentDay();
      if current.None? {
        return;
      }
      var day := current.value;
      var found := Find(day.items, ItemId, itemId);
      if found.Some? {
        var it := found.value;
        SaveItem(day.id, it.(isCompleted := !it.isCompleted));
      }
    }

    /** Appends a day labelled "Day n+1" (n the number of days) and selects it. The new day is
        dated at the trip's start when there are no days, otherwise the day after the last one;
        `stamp` is the timestamp in its id. */
    method AddDay(stamp: string, nextDate: string -> string)
      requires CurrentTrip().Some?
      modifies this, store
      ensures var days := old(Days());
        var date := if |days| == 0 then old(CurrentTrip()).value.startDate else nextDate(days[|days| - 1].date);
        && store.itineraryData == old(store.itineraryData)[tripId := days + [DayItinerary("d" + stamp, date, "Day " + Decimal(|days| + 1), [])]]
        && store.trips == old(store.trips) && store.memos == old(store.memos)
        && store.safetyData == old(store.safetyData) && store.moods == old(store.moods)
      ensures |Days()| == |old(Days())| + 1 && Days()[..|old(Days())|] == old(Days())
      ensures selectedDayId == "d" + stamp == Days()[|Days()| - 1].id
      ensures SelectionValid()
      ensures editing == old(editing)
    {
      var days := Days();
      var date := if |days| == 0 then CurrentTrip().value.startDate else nextDate(days[|days| - 1].date);
      var newDay := DayItinerary("d" + stamp, date, "Day " + Decimal(|days| + 1), []);
      store.UpdateItinerary(tripId, days + [newDay]);
      selectedDayId := newDay.id;
      assert Days() == days + [newDay];
      assert Days()[|days|].id == selectedDayId;
    }

    /** A confirmed delete removes the day; if it was selected, the first remaining day (or none) is. */
    method DeleteDay(dayId: string, confirmed: bool)
      modifies this, store
      ensures !confirmed ==> store.State() == old(store.State()) && selectedDayId == old(selectedDayId)
      ensures confirmed ==>
        var rest := RemoveById(old(Days()), DayId, dayId);
        && store.itineraryData == old(store.itineraryData)[tripId := rest]
        && store.trips == old(store.trips) && store.memos == old(store.memos)
        && store.safetyData == old(store.safetyData) && store.moods == old(store.moods)
        && selectedDayId == (if old(selectedDayId) != dayId then old(selectedDayId)
                             else if |rest| > 0 then rest[0].id else "")
      ensures old(SelectionValid()) ==> SelectionValid()
      ensures editing == old(editing)
    {
      if !confirmed {
        return;
      }
      var days := Days();
      var rest := RemoveById(days, DayId, dayId);
      store.UpdateItinerary(tripId, rest);
      if selectedDayId == dayId {
        selectedDayId := if |rest| > 0 then rest[0].id else "";
      }
      assert Days() == rest;
      if old(SelectionValid()) && |rest| > 0 && old(selectedDayId) != dayId {
        var d := old(CurrentDay()).value;
        RemoveByIdCount(days, DayId, dayId);
        assert d in days && d.id == selectedDayId;
        assert multiset(days)[d] > 0;
        assert d in multiset(rest);
        assert Find(rest, DayId, selectedDayId).Some?;
      }
    }

    /** Clicking a day tab selects it. */
    method SelectDay(dayId: string)
      modifies this
      ensures selectedDayId == dayId && editing == old(editing)
    {
      selectedDayId := dayId;
    }

    /** Opens the item editor on a day, for an existing item or a new one. */
    method OpenEditor(dayId: string, item: Option<ItineraryItem>)
      modifies this
      ensures editing == Some(EditTarget(dayId, item)) && selectedDayId == old(selectedDayId)
    {
      editing := Some(EditTarget(dayId, item));
    }

    method CloseEditor()
      modifies this
      ensures editing.None? && selectedDayId == old(selectedDayId)
    {
      editing := None;
    }

    /** The editor's save button: a form with neither title nor location is refused and the
        editor stays open; otherwise the edited item is saved into the editor's day. */
    method SaveFromEditor(form: ItemForm, now: string)
      requires editing.Some?
      modifies this, store
      ensures EditorSave(old(editing).value.item, form, now).None? ==>
        store.State() == old(store.State()) && editing == old(editing)
      ensures EditorSave(old(editing).value.item, form, now).Some? ==>
        var days := old(Days()); var k := FindIndex(days, DayId, old(editing).value.dayId);
        var item := EditorSave(old(editing).value.item, form, now).value;
        if k.None? then store.State() == old(store.State()) && editing == old(editing)
        else
          && store.itineraryData == old(store.itineraryData)[tripId := days[k.value := days[k.value].(items := SavedItems(days[k.value].items, item))]]
          && editing.None?
      ensures store.trips == old(store.trips) && store.memos == old(store.memos)
      ensures store.safetyData == old(store.safetyData) && store.moods == old(store.moods)
      ensures selectedDayId == old(selectedDayId)
    {
      var saved := EditorSave(editing.value.item, form, now);
      if saved.Some? {
        SaveItem(editing.value.dayId, saved.value);
      }
    }

    /** The editor's delete button, shown only when it is open on an existing item. */
    method DeleteFromEditor()
      requires editing.Some? && editing.value.item.Some?
      modifies this, store
      ensures var days := old(Days()); var k := FindIndex(days, DayId, old(editing).value.dayId);
        var id := old(editing).value.item.value.id;
        if k.None? then store.State() == old(store.State()) && editing == old(editing)
        else
          && store.itineraryData == old(store.itineraryData)[tripId := days[k.value := days[k.value].(items := RemoveById(days[k.value].items, ItemId, id))]]
          && editing.None?
      ensures store.trips == old(store.trips) && store.memos == old(store.memos)
      ensures store.safetyData == old(store.safetyData) && store.moods == old(store.moods)
      ensures selectedDayId == old(selectedDayId)
    {
      DeleteItem(editing.value.dayId, editing.value.item.value.id);
    }

    /** The trip edit form's save: name and dates replace the trip's, its id stays. */
    method EditTrip(name: string, startDate: string, endDate: string)
      requires CurrentTrip().Some?
      modifies store
      ensures var t := old(CurrentTrip()).value;
        && store.trips == ReplaceById(old(store.trips), TripId, t.(name := name, startDate := startDate, endDate := endDate))
        && store.itineraryData == old(store.itineraryData) && store.memos == old(store.memos)
        && store.safetyData == old(store.safetyData) && store.moods == old(store.moods)
    {
      var t := CurrentTrip().value;
      store.UpdateTrip(t.(name := name, startDate := startDate, endDate := endDate));
    }
  }

  /** Deleting the selected day and letting the effect run leaves a valid selection. */
  method DeleteSelectedDay(view: TripDetail)
    modifies view, view.store
    ensures view.SelectionValid()
  {
    view.DeleteDay(view.selectedDayId, true);
    view.RepairSelection();
  }
}

=== FILE: memo.dfy ===
/**
 * The memo screen: the type filter, building the memo a save dispatches, the completion
 * toggle, the empty draft, and the comma-separated tag field.
 */
module Memo {
  import opened Common
  import opened Types
  import opened Collections
  import App

  // ---------------------------------------------------------------- filter

  datatype Filter = All | Only(kind: MemoType)

  /** The memos the list shows under a filter, in store order. */
  function FilterMemos(memos: seq<MemoItem>, f: Filter): (r: seq<MemoItem>)
    ensures f.All? ==> r == memos
    ensures f.Only? ==> forall i :: 0 <= i < |r| ==> r[i].kind == f.kind
    ensures |r| <= |memos|
  {
    match f
    case All => memos
    case Only(k) => OfKind(memos, k)
  }

  function OfKind(memos: seq<MemoItem>, k: MemoType): (r: seq<MemoItem>)
    ensures |r| <= |memos|
    ensures forall i :: 0 <= i < |r| ==> r[i].kind == k
  {
    if |memos| == 0 then []
    else (if memos[0].kind == k then [memos[0]] else []) + OfKind(memos[1..], k)
  }

  /** A type filter keeps every memo of that type, as often as it occurs, and no other. */
  lemma {:induction false} OfKindCount(memos: seq<MemoItem>, k: MemoType)
    ensures forall m :: multiset(OfKind(memos, k))[m] == if m.kind == k then multiset(memos)[m] else 0
  {
    if |memos| > 0 {
      OfKindCount(memos[1..], k);
      assert memos == [memos[0]] + memos[1..];
    }
  }

  /** A type filter keeps the relative order of the memos it shows. */
  lemma {:induction false} OfKindAppend(a: seq<MemoItem>, b: seq<MemoItem>, k: MemoType)
    ensures OfKind(a + b, k) == OfKind(a, k) + OfKind(b, k)
  {
    if |a| > 0 {
      var head := if a[0].kind == k then [a[0]] else [];
      assert (a + b)[0] == a[0] && (a + b)[1..] == a[1..] + b;
      OfKindAppend(a[1..], b, k);
      calc {
        OfKind(a + b, k);
        head + OfKind(a[1..] + b, k);
        head + (OfKind(a[1..], k) + OfKind(b, k));
        (head + OfKind(a[1..], k)) + OfKind(b, k);
      }
    } else {
      assert a + b == b;
    }
  }

  // ---------------------------------------------------------------- saving

  /** The editor's draft: a memo whose fields may all be missing. */
  datatype MemoDraft = MemoDraft(
    id: Option<string>, kind: Option<MemoType>, content: Option<string>,
    tags: Option<seq<string>>, isCompleted: Option<bool>)

  /** What a save hands to the store: nothing, a new memo, or a replacement. */
  datatype SaveAction = Rejected | Add(memo: MemoItem) | Update(memo: MemoItem)

  /** The draft the "new memo" button opens. */
  function NewDraft(): (d: MemoDraft)
    ensures d.id.None? && d.content.None?
    ensures d.kind == Some(EAT) && d.tags == Some([]) && d.isCompleted == Some(false)
  {
    MemoDraft(None, Some(EAT), None, Some([]), Some(false))
  }

  /** The draft opened by clicking an existing memo: a copy of the memo with every field present,
      so saving it uses no default; it is saveable exactly when the memo has content, and updates
      exactly when it has an id. */
  function DraftOf(m: MemoItem): (d: MemoDraft)
    ensures d.id == Some(m.id) && d.content == Some(m.content)
    ensures d.kind == Some(m.kind) && d.tags == Some(m.tags) && d.isCompleted == Some(m.isCompleted)
    ensures Truthy(d.content) <==> m.content != ""
    ensures Truthy(d.id) <==> m.id != ""
  {
    MemoDraft(Some(m.id), Some(m.kind), Some(m.content), Some(m.tags), Some(m.isCompleted))
  }

  /** Saving a draft; `freshId` is the timestamp id a new memo receives. */
  function Save(d: MemoDraft, freshId: string): (a: SaveAction)
    ensures a.Rejected? <==> !Truthy(d.content) || d.kind.None?
    ensures a.Update? <==> !a.Rejected? && Truthy(d.id)
    ensures a.Update? ==> a.memo.id == d.id.value
    ensures a.Add? ==> a.memo.id == freshId
    ensures !a.Rejected? ==>
      && a.memo.kind == d.kind.value
      && a.memo.content == d.content.value
      && a.memo.tags == d.tags.GetOr([])
      && a.memo.isCompleted == d.isCompleted.GetOr(false)
  {
    if !Truthy(d.content) || d.kind.None? then Rejected
    else
      var memo := MemoItem(if Truthy(d.id) then d.id.value else freshId, d.kind.value, d.content.value,
                           d.tags.GetOr([]), d.isCompleted.GetOr(false));
      if Truthy(d.id) then Update(memo) else Add(memo)
  }

  /** A new draft is not saveable until it has content; then it is added, with defaults. */
  lemma NewDraftSave(content: string, freshId: string)
    ensures Save(NewDraft(), freshId) == Rejected
    ensures content != "" ==>
      Save(NewDraft().(content := Some(content)), freshId) == Add(MemoItem(freshId, EAT, content, [], false))
  {
  }

  /** Re-saving an opened memo unchanged dispatches an update with that very memo; a memo
      without an id is added again under the fresh id instead. */
  lemma SaveOpenedMemo(m: MemoItem, freshId: string)
    requires m.content != ""
    ensures Save(DraftOf(m), freshId) == if m.id != "" then Update(m) else Add(m.(id := freshId))
  {
  }

  /** The completion toggle. */
  function ToggleComplete(m: MemoItem): (r: MemoItem)
    ensures r.isCompleted == !m.isCompleted
    ensures r.id == m.id && r.kind == m.kind && r.content == m.content && r.tags == m.tags
  {
    m.(isCompleted := !m.isCompleted)
  }

  lemma ToggleTwice(m: MemoItem)
    ensures ToggleComplete(ToggleComplete(m)) == m
  {
  }

  // ---------------------------------------------------------------- tags

  /** The characters JavaScript's `trim` removes: white space and line terminators. */
  predicate IsWhite(c: char)
  {
    var k := c as int;
    (0x9 <= k <= 0xD) || k == 0x20 || k == 0xA0 || k == 0x1680 || (0x2000 <= k <= 0x200A)
    || k == 0x2028 || k == 0x2029 || k == 0x202F || k == 0x205F || k == 0x3000 || k == 0xFEFF
  }

  predicate AllWhite(s: string)
  {
    forall i :: 0 <= i < |s| ==> IsWhite(s[i])
  }

  /** A tag as the parser produces it: non-empty, trimmed, comma-free. */
  predicate IsTag(t: string)
  {
    |t| > 0 && !IsWhite(t[0]) && !IsWhite(t[|t| - 1]) && ',' !in t
  }

  /** Drops the leading white space. */
  function TrimStart(s: string): (r: string)
    ensures |r| <= |s|
    ensures |r| > 0 ==> !IsWhite(r[0])
    ensures forall c :: c in r ==> c in s
    ensures r == "" <==> AllWhite(s)
  {
    if |s| > 0 && IsWhite(s[0]) then TrimStart(s[1..]) else s
  }

  /** What the leading trim keeps is the suffix behind a white prefix. */
  lemma {:induction false} TrimStartSuffix(s: string)
    ensures TrimStart(s) == s[|s| - |TrimStart(s)|..] && AllWhite(s[..|s| - |TrimStart(s)|])
  {
    if |s| > 0 && IsWhite(s[0]) {
      var r := TrimStart(s[1..]);
      TrimStartSuffix(s[1..]);
      assert s[..|s| - |r|] == [s[0]] + s[1..][..|s| - 1 - |r|];
      assert s[|s| - |r|..] == s[1..][|s| - 1 - |r|..];
    }
  }

  /** Drops the trailing white space. */
  function TrimEnd(s: string): (r: string)
    ensures |r| <= |s| && (|r| > 0 ==> r[0] == s[0])
    ensures |r| > 0 ==> !IsWhite(r[|r| - 1])
    ensures forall c :: c in r ==> c in s
    ensures r == "" <==> AllWhite(s)
  {
    if |s| > 0 && IsWhite(s[|s| - 1]) then TrimEnd(s[..|s| - 1]) else s
  }

  /** What the trailing trim keeps is the prefix before a white suffix. */
  lemma {:induction false} TrimEndPrefix(s: string)
    ensures TrimEnd(s) == s[..|TrimEnd(s)|] && AllWhite(s[|TrimEnd(s)|..])
  {
    if |s| > 0 && IsWhite(s[|s| - 1]) {
      var r := TrimEnd(s[..|s| - 1]);
      TrimEndPrefix(s[..|s| - 1]);
      assert s[|r|..] == s[..|s| - 1][|r|..] + [s[|s| - 1]];
    }
  }

  /** `s.trim()`. */
  function Trim(s: string): (r: string)
    ensures r == "" || (!IsWhite(r[0]) && !IsWhite(r[|r| - 1]))
    ensures forall c :: c in r ==> c in s
    ensures r == "" <==> AllWhite(s)
  {
    TrimEnd(TrimStart(s))
  }

  /** Trimming keeps exactly the stretch of the text between a white prefix and a white suffix. */
  lemma TrimInfix(s: string)
    ensures exists a :: 0 <= a <= |s| - |Trim(s)| && AllWhite(s[..a]) && Trim(s) == s[a..a + |Trim(s)|] && AllWhite(s[a + |Trim(s)|..])
  {
    var t := TrimStart(s);
    var r := TrimEnd(t);
    var a := |s| - |t|;
    TrimStartSuffix(s);
    TrimEndPrefix(t);
    assert t == s[a..];
    assert s[a..a + |r|] == t[..|r|];
    assert s[a + |r|..] == t[|r|..];
    assert 0 <= a <= |s| - |r| && AllWhite(s[..a]) && r == s[a..a + |r|] && AllWhite(s[a + |r|..]);
  }

  /** Trimming a tag behind white space gives back the tag. */
  lemma {:induction false} TrimPaddedTag(w: string, t: string)
    requires AllWhite(w) && IsTag(t)
    ensures Trim(w + t) == t
  {
    if |w| > 0 {
      assert (w + t)[1..] == w[1..] + t;
      TrimPaddedTag(w[1..], t);
    } else {
      assert w + t == t;
    }
  }

  /** `s.split(',')`. */
  function SplitComma(s: string): (parts: seq<string>)
    ensures |parts| >= 1
    ensures forall i :: 0 <= i < |parts| ==> ',' !in parts[i]
  {
    if |s| == 0 then [""]
    else
      var rest := SplitComma(s[1..]);
      if s[0] == ',' then [""] + rest else [[s[0]] + rest[0]] + rest[1..]
  }

  /** `parts.join(sep)`: the parts in order with the separator between them, and nothing else. */
  function Join(parts: seq<string>, sep: string): (r: string)
    ensures |parts| == 0 ==> r == ""
    ensures |parts| == 1 ==> r == parts[0]
    ensures |parts| > 0 ==> |parts[0]| <= |r| && r[..|parts[0]|] == parts[0]
    ensures forall c :: c in r ==> c in sep || exists i :: 0 <= i < |parts| && c in parts[i]
  {
    if |parts| == 0 then ""
    else if |parts| == 1 then parts[0]
    else parts[0] + sep + Join(parts[1..], sep)
  }

  /** Splitting on commas and joining with commas gives back the text. */
  lemma {:induction false} JoinSplitComma(s: string)
    ensures Join(SplitComma(s), ",") == s
  {
    if |s| > 0 {
      JoinSplitComma(s[1..]);
      var rest := SplitComma(s[1..]);
      if s[0] == ',' {
        assert s == [','] + s[1..];
      } else {
        assert s == [s[0]] + s[1..];
        if |rest| > 1 {
          assert Join(rest, ",") == rest[0] + "," + Join(rest[1..], ",");
        }
      }
    }
  }

  /** A comma-free head splits off as one part. */
  lemma {:induction false} SplitCommaHead(p: string, u: string)
    requires ',' !in p
    ensures SplitComma(p + "," + u) == [p] + SplitComma(u)
    ensures SplitComma(p) == [p]
  {
    if |p| > 0 {
      assert (p + "," + u)[1..] == p[1..] + "," + u;
      SplitCommaHead(p[1..], u);
      assert p == [p[0]] + p[1..];
    } else {
      assert p + "," + u == [','] + u;
    }
  }

  /** Trims every part and drops the empty ones: `.map(t => t.trim()).filter(Boolean)`. */
  function CleanTags(parts: seq<string>): (tags: seq<string>)
    requires forall i :: 0 <= i < |parts| ==> ',' !in parts[i]
    ensures |tags| <= |parts|
    ensures forall i :: 0 <= i < |tags| ==> IsTag(tags[i])
  {
    if |parts| == 0 then []
    else
      var t := Trim(parts[0]);
      (if t == "" then [] else [t]) + CleanTags(parts[1..])
  }

  /** Cleaning a run of parts that starts with x: x's trimmed text, unless empty, then the rest. */
  lemma CleanTagsCons(x: string, r: seq<string>)
    requires ',' !in x
    requires forall i :: 0 <= i < |r| ==> ',' !in r[i]
    ensures CleanTags([x] + r) == (if Trim(x) == "" then [] else [Trim(x)]) + CleanTags(r)
  {
    assert ([x] + r)[1..] == r;
  }

  /** Cleaning works part by part, so the kept tags stay in the order of the parts. */
  lemma {:induction false} CleanTagsAppend(p: seq<string>, q: seq<string>)
    requires forall i :: 0 <= i < |p| ==> ',' !in p[i]
    requires forall i :: 0 <= i < |q| ==> ',' !in q[i]
    ensures CleanTags(p + q) == CleanTags(p) + CleanTags(q)
  {
    if |p| == 0 {
      assert p + q == q;
    } else {
      var x, rest := p[0], p[1..];
      assert p == [x] + rest;
      assert p + q == [x] + (rest + q);
      CleanTagsAppend(rest, q);
      CleanTagsCons(x, rest + q);
      CleanTagsCons(x, rest);
    }
  }

  /** One part gives its trimmed text, unless that is empty. */
  lemma CleanTagsOne(p: string)
    requires ',' !in p
    ensures CleanTags([p]) == if Trim(p) == "" then [] else [Trim(p)]
  {
    assert [p][1..] == [];
  }

  /** The tag field's text turned into tags. */
  function ParseTags(s: string): (tags: seq<string>)
    ensures forall i :: 0 <= i < |tags| ==> IsTag(tags[i])
  {
    CleanTags(SplitComma(s))
  }

  /** The tag field's text for a list of tags: `tags.join(', ')`. */
  function ShowTags(tags: seq<string>): (s: string)
    ensures |tags| == 0 ==> s == ""
    ensures |tags| == 1 ==> s == tags[0]
    ensures forall c :: c in s ==> c == ',' || c == ' ' || exists i :: 0 <= i < |tags| && c in tags[i]
  {
    Join(tags, ", ")
  }

  lemma {:induction false} CleanSplitShown(w: string, tags: seq<string>)
    requires AllWhite(w) && (forall i :: 0 <= i < |tags| ==> IsTag(tags[i]))
    ensures CleanTags(SplitComma(w + ShowTags(tags))) == tags
    decreases tags
  {
    if |tags| == 0 {
      assert w + ShowTags(tags) == w;
      assert ',' !in w;
      SplitCommaHead(w, "");
    } else if |tags| == 1 {
      var t := tags[0];
      assert w + ShowTags(tags) == w + t;
      assert ',' !in w + t;
      SplitCommaHead(w + t, "");
      TrimPaddedTag(w, t);
    } else {
      var t, rest := tags[0], tags[1..];
      assert ShowTags(tags) == t + ", " + ShowTags(rest);
      assert w + ShowTags(tags) == (w + t) + "," + (" " + ShowTags(rest));
      assert ',' !in w + t;
      SplitCommaHead(w + t, " " + ShowTags(rest));
      TrimPaddedTag(w, t);
      CleanSplitShown(" ", rest);
    }
  }

  /** Parsing the text shown for parsed-shaped tags gives back those tags. */
  lemma ParseShowTags(tags: seq<string>)
    requires forall i :: 0 <= i < |tags| ==> IsTag(tags[i])
    ensures ParseTags(ShowTags(tags)) == tags
  {
    CleanSplitShown("", tags);
    assert "" + ShowTags(tags) == ShowTags(tags);
  }

  /** Typed text, read up to its first comma: the first piece gives its trimmed text, unless
      that is empty, followed by the tags of the rest. */
  lemma ParseTagsCons(p: string, u: string)
    requires ',' !in p
    ensures ParseTags(p + "," + u) == (if Trim(p) == "" then [] else [Trim(p)]) + ParseTags(u)
  {
    SplitCommaHead(p, u);
    CleanTagsAppend([p], SplitComma(u));
    CleanTagsOne(p);
  }

  /** Text without a comma is one piece: its trimmed text, unless that is empty. */
  lemma ParseTagsLast(p: string)
    requires ',' !in p
    ensures ParseTags(p) == if Trim(p) == "" then [] else [Trim(p)]
  {
    SplitCommaHead(p, "");
    CleanTagsOne(p);
  }

  /** The tag field is stable: parsing what is displayed for parsed tags changes nothing. */
  lemma ParseTagsStable(s: string)
    ensures ParseTags(ShowTags(ParseTags(s))) == ParseTags(s)
  {
    ParseShowTags(ParseTags(s));
  }

  // ---------------------------------------------------------------- the screen

  /** The memo screen: the type filter and the open editor's draft; every change to the memos
      goes through the store's memo handlers. */
  class MemoView {
    const store: App.Store
    var filter: Filter
    var editing: Option<MemoDraft>

    constructor (store: App.Store)
      ensures this.store == store && filter == All && editing.None?
    {
      this.store := store;
      filter := All;
      editing := None;
    }

    /** The memos listed under the current filter. */
    function Shown(): seq<MemoItem>
      reads this, store
    {
      FilterMemos(store.memos, filter)
    }

    method SetFilter(f: Filter)
      modifies this
      ensures filter == f && editing == old(editing)
    {
      filter := f;
    }

    /** Opens the editor on a new draft, or on an existing memo when one is clicked. */
    method OpenEditor(m: Option<MemoItem>)
      modifies this
      ensures editing == Some(if m.Some? then DraftOf(m.value) else NewDraft()) && filter == old(filter)
    {
      editing := Some(if m.Some? then DraftOf(m.value) else NewDraft());
    }

    method CloseEditor()
      modifies this
      ensures editing.None? && filter == old(filter)
    {
      editing := None;
    }

    method SetKind(k: MemoType)
      requires editing.Some?
      modifies this
      ensures editing == Some(old(editing).value.(kind := Some(k))) && filter == old(filter)
    {
      editing := Some(editing.value.(kind := Some(k)));
    }

    method SetContent(text: string)
      requires editing.Some?
      modifies this
      ensures editing == Some(old(editing).value.(content := Some(text))) && filter == old(filter)
    {
      editing := Some(editing.value.(content := Some(text)));
    }

    /** Every keystroke in the tag field replaces the draft's tags with the parsed text. */
    method SetTagsText(text: string)
      requires editing.Some?
      modifies this
      ensures editing == Some(old(editing).value.(tags := Some(ParseTags(text)))) && filter == old(filter)
    {
      editing := Some(editing.value.(tags := Some(ParseTags(text))));
    }

    /** The editor's save: a rejected draft leaves everything open; a draft with an id replaces
        that memo, one without is appended; the editor then closes. */
    method SaveEditor(freshId: string)
      requires editing.Some?
      modifies this, store
      ensures Save(old(editing).value, freshId).Rejected? ==> store.State() == old(store.State()) && editing == old(editing)
      ensures Save(old(editing).value, freshId).Add? ==>
        store.memos == old(store.memos) + [Save(old(editing).value, freshId).memo] && editing.None?
      ensures Save(old(editing).value, freshId).Update? ==>
        store.memos == ReplaceById(old(store.memos), MemoId, Save(old(editing).value, freshId).memo) && editing.None?
      ensures store.trips == old(store.trips) && store.itineraryData == old(store.itineraryData)
      ensures store.safetyData == old(store.safetyData) && store.moods == old(store.moods)
      ensures filter == old(filter)
    {
      var action := Save(editing.value, freshId);
      if action.Rejected? {
        return;
      } else if action.Add? {
        store.AddMemo(action.memo);
      } else {
        store.UpdateMemo(action.memo);
      }
      editing := None;
    }

    /** The completion circle on a memo card flips its completion through the update handler. */
    method Toggle(m: MemoItem)
      modifies store
      ensures store.memos == ReplaceById(old(store.memos), MemoId, ToggleComplete(m))
      ensures store.trips == old(store.trips) && store.itineraryData == old(store.itineraryData)
      ensures store.safetyData == old(store.safetyData) && store.moods == old(store.moods)
    {
      store.UpdateMemo(ToggleComplete(m));
    }

    /** The editor's delete button, shown only for a draft with an id. */
    method DeleteEditing()
      requires editing.Some? && Truthy(editing.value.id)
      modifies this, store
      ensures store.memos == RemoveById(old(store.memos), MemoId, old(editing).value.id.value)
      ensures store.trips == old(store.trips) && store.itineraryData == old(store.itineraryData)
      ensures store.safetyData == old(store.safetyData) && store.moods == old(store.moods)
      ensures editing.None? && filter == old(filter)
    {
      store.DeleteMemo(editing.value.id.value);
      editing := None;
    }
  }

  /** Opening a memo and saving it untouched writes it back over itself; a memo without an id
      is appended again under the fresh id. */
  method ResaveMemo(view: MemoView, m: MemoItem, freshId: string)
    requires m.content != ""
    modifies view, view.store
    ensures m.id != "" ==> view.store.memos == ReplaceById(old(view.store.memos), MemoId, m)
    ensures m.id == "" ==> view.store.memos == old(view.store.memos) + [m.(id := freshId)]
    ensures view.editing.None?
  {
    view.OpenEditor(Some(m));
    SaveOpenedMemo(m, freshId);
    view.SaveEditor(freshId);
  }
}

=== FILE: mood.dfy ===
/**
 * The mood screen: today's capture (a mood must be chosen before it can be saved) and the
 * editor for a past entry, both writing through the store's mood handlers.
 */
module MoodCapture {
  import opened Common
  import opened Types
  import opened Collections
  import App

  class MoodView {
    const store: App.Store
    var selectedMood: Option<Mood>
    var note: string
    var editingEntry: Option<MoodEntry>

    constructor (store: App.Store)
      ensures this.store == store && selectedMood.None? && note == "" && editingEntry.None?
    {
      this.store := store;
      selectedMood := None;
      note := "";
      editingEntry := None;
    }

    method SelectMood(m: Mood)
      modifies this
      ensures selectedMood == Some(m) && note == old(note) && editingEntry == old(editingEntry)
    {
      selectedMood := Some(m);
    }

    method SetNote(text: string)
      modifies this
      ensures note == text && selectedMood == old(selectedMood) && editingEntry == old(editingEntry)
    {
      note := text;
    }

    /** Records today's mood, newest first, and clears the capture. Without a chosen mood
        nothing happens. `now` is the timestamp id and `today` the `YYYY-MM-DD` date. */
    method SaveToday(now: string, today: string)
      modifies this, store
      ensures old(selectedMood).None? ==>
        store.State() == old(store.State()) && note == old(note) && selectedMood.None?
      ensures old(selectedMood).Some? ==>
        && store.moods == [MoodEntry(now, today, old(selectedMood).value, old(note))] + old(store.moods)
        && store.trips == old(store.trips) && store.itineraryData == old(store.itineraryData)
        && store.memos == old(store.memos) && store.safetyData == old(store.safetyData)
        && selectedMood.None? && note == ""
      ensures editingEntry == old(editingEntry)
    {
      if selectedMood.None? {
        return;
      }
      store.AddMood(MoodEntry(now, today, selectedMood.value, note));
      selectedMood := None;
      note := "";
    }

    method OpenEntry(e: MoodEntry)
      modifies this
      ensures editingEntry == Some(e) && selectedMood == old(selectedMood) && note == old(note)
    {
      editingEntry := Some(e);
    }

    method CloseEditor()
      modifies this
      ensures editingEntry.None? && selectedMood == old(selectedMood) && note == old(note)
    {
      editingEntry := None;
    }

    /** Picking a mood in the editor keeps the entry's id, date and note. */
    method EditMood(m: Mood)
      requires editingEntry.Some?
      modifies this
      ensures editingEntry.Some? && editingEntry.value.mood == m
      ensures editingEntry.value.id == old(editingEntry).value.id
      ensures editingEntry.value.date == old(editingEntry).value.date
      ensures editingEntry.value.note == old(editingEntry).value.note
      ensures selectedMood == old(selectedMood) && note == old(note)
    {
      editingEntry := Some(editingEntry.value.(mood := m));
    }

    /** Typing in the editor keeps the entry's id, date and mood. */
    method EditNote(text: string)
      requires editingEntry.Some?
      modifies this
      ensures editingEntry.Some? && editingEntry.value.note == text
      ensures editingEntry.value.id == old(editingEntry).value.id
      ensures editingEntry.value.date == old(editingEntry).value.date
      ensures editingEntry.value.mood == old(editingEntry).value.mood
      ensures selectedMood == old(selectedMood) && note == old(note)
    {
      editingEntry := Some(editingEntry.value.(note := text));
    }

    /** Writes the edited entry back over the entries with its id and closes the editor. */
    method UpdateEntry()
      modifies this, store
      ensures old(editingEntry).None? ==> store.State() == old(store.State()) && editingEntry.None?
      ensures old(editingEntry).Some? ==>
        && store.moods == ReplaceById(old(store.moods), MoodId, old(editingEntry).value)
        && store.trips == old(store.trips) && store.itineraryData == old(store.itineraryData)
        && store.memos == old(store.memos) && store.safetyData == old(store.safetyData)
        && editingEntry.None?
      ensures selectedMood == old(selectedMood) && note == old(note)
    {
      if editingEntry.None? {
        return;
      }
      store.UpdateMood(editingEntry.value);
      editingEntry := None;
    }

    /** The editor's delete button: drops the entries with the edited id and closes the editor. */
    method DeleteEntry()
      requires editingEntry.Some?
      modifies this, store
      ensures store.moods == RemoveById(old(store.moods), MoodId, old(editingEntry).value.id)
      ensures store.trips == old(store.trips) && store.itineraryData == old(store.itineraryData)
      ensures store.memos == old(store.memos) && store.safetyData == old(store.safetyData)
      ensures editingEntry.None? && selectedMood == old(selectedMood) && note == old(note)
    {
      store.DeleteMood(editingEntry.value.id);
      editingEntry := None;
    }
  }

  /** Editing an entry's mood and note and saving it replaces it, keeping its id and date. */
  method EditAndSave(view: MoodView, e: MoodEntry, m: Mood, text: string)
    modifies view, view.store
    ensures view.store.moods == ReplaceById(old(view.store.moods), MoodId, MoodEntry(e.id, e.date, m, text))
    ensures view.editingEntry.None?
  {
    view.OpenEntry(e);
    view.EditMood(m);
    view.EditNote(text);
    view.UpdateEntry();
  }
}

=== FILE: safety.dfy ===
/**
 * The safety screen: emergency contacts, the passport number and the accommodation, each
 * edited in a draft and written back through the store's safety handler.
 */
module Safety {
  import opened Common
  import opened Types
  import opened Collections
  import App

  /** The sections with an edit form; `CONTACTS` is declared but no handler selects it. */
  datatype Section = CONTACTS | PASSPORT | ACCOMMODATION

  /** The contact form: a contact whose fields may all be missing. */
  datatype ContactDraft = ContactDraft(id: Option<string>, name: Option<string>, phone: Option<string>, relation: Option<string>)

  const EmptyContactDraft := ContactDraft(None, None, None, None)

  /** The form opened by clicking an existing contact: a copy of the contact with every field
      present; it is saveable exactly when the contact has a name and a phone number. */
  function ContactDraftOf(c: SafetyContact): (d: ContactDraft)
    ensures d.id == Some(c.id) && d.relation == Some(c.relation)
    ensures d.name == Some(c.name) && d.phone == Some(c.phone)
    ensures Saveable(d) <==> c.name != "" && c.phone != ""
  {
    ContactDraft(Some(c.id), Some(c.name), Some(c.phone), Some(c.relation))
  }

  /** A draft is saved only with a name and a phone number; its id and relation do not matter. */
  predicate Saveable(d: ContactDraft)
    ensures Saveable(d) <==> d.name.Some? && d.name.value != "" && d.phone.Some? && d.phone.value != ""
  {
    Truthy(d.name) && Truthy(d.phone)
  }

  /** The contact a saveable draft becomes; `now` is the timestamp id of a new contact. */
  function ContactFromDraft(d: ContactDraft, now: string): (c: SafetyContact)
    requires Saveable(d)
    ensures Truthy(d.id) ==> c.id == d.id.value
    ensures !Truthy(d.id) ==> c.id == now
    ensures c.name == d.name.value && c.phone == d.phone.value
    ensures d.relation.None? ==> c.relation == ""
    ensures d.relation.Some? ==> c.relation == d.relation.value
  {
    SafetyContact(if Truthy(d.id) then d.id.value else now, d.name.value, d.phone.value, d.relation.GetOr(""))
  }

  /** Re-saving an opened contact unchanged produces that very contact; a contact without an
      id comes back under the timestamp id. */
  lemma ContactDraftRoundTrip(c: SafetyContact, now: string)
    requires c.name != "" && c.phone != ""
    ensures Saveable(ContactDraftOf(c))
    ensures ContactFromDraft(ContactDraftOf(c), now) == if c.id != "" then c else c.(id := now)
  {
  }

  class SafetyView {
    const store: App.Store
    var editingSection: Option<Section>
    var tempPassport: string
    var tempAccommodation: Accommodation
    var tempContact: ContactDraft
    var isAddingContact: bool

    /** The passport and accommodation drafts start from the data shown when the screen opens. */
    constructor (store: App.Store)
      ensures this.store == store && editingSection.None? && !isAddingContact
      ensures tempPassport == store.safetyData.passportNumber
      ensures tempAccommodation == store.safetyData.accommodation
      ensures tempContact == EmptyContactDraft
    {
      this.store := store;
      editingSection := None;
      tempPassport := store.safetyData.passportNumber;
      tempAccommodation := store.safetyData.accommodation;
      tempContact := EmptyContactDraft;
      isAddingContact := false;
    }

    /** Writes the passport draft; contacts and accommodation stay. */
    method SavePassport()
      modifies this, store
      ensures store.safetyData.passportNumber == old(tempPassport)
      ensures store.safetyData.contacts == old(store.safetyData.contacts)
      ensures store.safetyData.accommodation == old(store.safetyData.accommodation)
      ensures store.trips == old(store.trips) && store.itineraryData == old(store.itineraryData)
      ensures store.memos == old(store.memos) && store.moods == old(store.moods)
      ensures editingSection.None? && tempContact == old(tempContact) && isAddingContact == old(isAddingContact)
      ensures tempPassport == old(tempPassport) && tempAccommodation == old(tempAccommodation)
    {
      store.UpdateSafety(store.safetyData.(passportNumber := tempPassport));
      editingSection := None;
    }

    /** Writes the accommodation draft; contacts and passport stay. */
    method SaveAccommodation()
      modifies this, store
      ensures store.safetyData.accommodation == old(tempAccommodation)
      ensures store.safetyData.contacts == old(store.safetyData.contacts)
      ensures store.safetyData.passportNumber == old(store.safetyData.passportNumber)
      ensures store.trips == old(store.trips) && store.itineraryData == old(store.itineraryData)
      ensures store.memos == old(store.memos) && store.moods == old(store.moods)
      ensures editingSection.None? && tempContact == old(tempContact) && isAddingContact == old(isAddingContact)
      ensures tempPassport == old(tempPassport) && tempAccommodation == old(tempAccommodation)
    {
      store.UpdateSafety(store.safetyData.(accommodation := tempAccommodation));
      editingSection := None;
    }

    /** The pencil of the passport or accommodation card opens that section's form. */
    method OpenSection(s: Section)
      modifies this
      ensures editingSection == Some(s) && tempContact == old(tempContact) && isAddingContact == old(isAddingContact)
      ensures tempPassport == old(tempPassport) && tempAccommodation == old(tempAccommodation)
    {
      editingSection := Some(s);
    }

    /** Cancelling a section form keeps its draft for the next opening. */
    method CloseSection()
      modifies this
      ensures editingSection.None? && tempContact == old(tempContact) && isAddingContact == old(isAddingContact)
      ensures tempPassport == old(tempPassport) && tempAccommodation == old(tempAccommodation)
    {
      editingSection := None;
    }

    /** The pencil of the contacts card reopens the contact form on whatever draft it holds. */
    method ResumeContactForm()
      modifies this
      ensures isAddingContact && tempContact == old(tempContact) && editingSection == old(editingSection)
      ensures tempPassport == old(tempPassport) && tempAccommodation == old(tempAccommodation)
    {
      isAddingContact := true;
    }

    /** Cancelling the contact form keeps its draft. */
    method CancelContactForm()
      modifies this
      ensures !isAddingContact && tempContact == old(tempContact) && editingSection == old(editingSection)
      ensures tempPassport == old(tempPassport) && tempAccommodation == old(tempAccommodation)
    {
      isAddingContact := false;
    }

    /** Typing a name keeps the draft's id, phone and relation. */
    method SetContactName(name: string)
      modifies this
      ensures tempContact == old(tempContact).(name := Some(name))
      ensures isAddingContact == old(isAddingContact) && editingSection == old(editingSection)
      ensures tempPassport == old(tempPassport) && tempAccommodation == old(tempAccommodation)
    {
      tempContact := tempContact.(name := Some(name));
    }

    /** Typing a phone number keeps the draft's id, name and relation. */
    method SetContactPhone(phone: string)
      modifies this
      ensures tempContact == old(tempContact).(phone := Some(phone))
      ensures isAddingContact == old(isAddingContact) && editingSection == old(editingSection)
      ensures tempPassport == old(tempPassport) && tempAccommodation == old(tempAccommodation)
    {
      tempContact := tempContact.(phone := Some(phone));
    }

    /** Opens the contact form, empty or on an existing contact. */
    method OpenContact(c: Option<SafetyContact>)
      modifies this
      ensures tempContact == (if c.Some? then ContactDraftOf(c.value) else EmptyContactDraft)
      ensures isAddingContact
      ensures editingSection == old(editingSection) && tempPassport == old(tempPassport)
      ensures tempAccommodation == old(tempAccommodation)
    {
      tempContact := if c.Some? then ContactDraftOf(c.value) else EmptyContactDraft;
      isAddingContact := true;
    }

    /** Saves the contact form: a draft with an id replaces that contact in place, one without
        is appended; a draft lacking a name or phone changes nothing. */
    method SaveContact(now: string)
      modifies this, store
      ensures !Saveable(old(tempContact)) ==>
        store.State() == old(store.State()) && tempContact == old(tempContact) && isAddingContact == old(isAddingContact)
      ensures Saveable(old(tempContact)) ==>
        var c := ContactFromDraft(old(tempContact), now);
        && store.safetyData.contacts == (if Truthy(old(tempContact).id) then ReplaceById(old(store.safetyData.contacts), ContactId, c)
                                         else old(store.safetyData.contacts) + [c])
        && store.safetyData.passportNumber == old(store.safetyData.passportNumber)
        && store.safetyData.accommodation == old(store.safetyData.accommodation)
        && store.trips == old(store.trips) && store.itineraryData == old(store.itineraryData)
        && store.memos == old(store.memos) && store.moods == old(store.moods)
        && tempContact == EmptyContactDraft && !isAddingContact
      ensures Saveable(old(tempContact)) && Truthy(old(tempContact).id) ==>
        |store.safetyData.contacts| == |old(store.safetyData.contacts)|
      ensures Saveable(old(tempContact)) && !Truthy(old(tempContact).id) ==>
        |store.safetyData.contacts| == |old(store.safetyData.contacts)| + 1
      ensures editingSection == old(editingSection)
      ensures tempPassport == old(tempPassport) && tempAccommodation == old(tempAccommodation)
    {
      if !Saveable(tempContact) {
        return;
      }
      var c := ContactFromDraft(tempContact, now);
      var contacts := store.safetyData.contacts;
      if Truthy(tempContact.id) {
        contacts := ReplaceById(contacts, ContactId, c);
      } else {
        contacts := contacts + [c];
      }
      store.UpdateSafety(store.safetyData.(contacts := contacts));
      isAddingContact := false;
      tempContact := EmptyContactDraft;
    }

    /** Removes every contact with the id; the rest keep their order. */
    method DeleteContact(id: string)
      modifies store
      ensures store.safetyData.contacts == RemoveById(old(store.safetyData.contacts), ContactId, id)
      ensures store.safetyData.passportNumber == old(store.safetyData.passportNumber)
      ensures store.safetyData.accommodation == old(store.safetyData.accommodation)
      ensures store.trips == old(store.trips) && store.itineraryData == old(store.itineraryData)
      ensures store.memos == old(store.memos) && store.moods == old(store.moods)
    {
      store.UpdateSafety(store.safetyData.(contacts := RemoveById(store.safetyData.contacts, ContactId, id)));
    }

    /** The delete button of the contact form, shown only for a contact that has an id. */
    method DeleteOpenContact()
      requires Truthy(tempContact.id)
      modifies this, store
      ensures store.safetyData.contacts == RemoveById(old(store.safetyData.contacts), ContactId, old(tempContact).id.value)
      ensures store.safetyData.passportNumber == old(store.safetyData.passportNumber)
      ensures store.safetyData.accommodation == old(store.safetyData.accommodation)
      ensures store.trips == old(store.trips) && store.itineraryData == old(store.itineraryData)
      ensures store.memos == old(store.memos) && store.moods == old(store.moods)
      ensures !isAddingContact && tempContact == old(tempContact) && editingSection == old(editingSection)
      ensures tempPassport == old(tempPassport) && tempAccommodation == old(tempAccommodation)
    {
      DeleteContact(tempContact.id.value);
      isAddingContact := false;
    }
  }

  /** Deleting the open contact leaves its draft in the form; reopening the form from the card's
      pencil and saving then writes over no contact, so the deleted contact stays deleted and
      the save adds nothing. */
  method DeleteThenResave(view: SafetyView, now: string)
    requires Truthy(view.tempContact.id) && Saveable(view.tempContact)
    modifies view, view.store
    ensures view.store.safetyData.contacts == RemoveById(old(view.store.safetyData.contacts), ContactId, old(view.tempContact).id.value)
    ensures view.tempContact == EmptyContactDraft && !view.isAddingContact
  {
    var id := view.tempContact.id.value;
    view.DeleteOpenContact();
    var removed := view.store.safetyData.contacts;
    view.ResumeContactForm();
    ReplaceByIdAbsent(removed, ContactId, ContactFromDraft(view.tempContact, now));
    view.SaveContact(now);
  }
}

=== FILE: text.dfy ===
/**
 * Ordinal string order and the fixed-width textual formats the app compares with it:
 * `YYYY-MM-DD` dates, `HH:MM` times and decimal numbers.
 */
module Text {
  import opened Common

  /** Ordinal comparison, as JavaScript's `<` on strings: the first differing character
      decides, and a proper prefix comes first. */
  predicate Lt(a: string, b: string)
  {
    |b| > 0 && (|a| == 0 || a[0] < b[0] || (a[0] == b[0] && Lt(a[1..], b[1..])))
  }

  /** The reflexive companion of Lt. */
  predicate Le(a: string, b: string)
  {
    |a| == 0 || (|b| > 0 && (a[0] < b[0] || (a[0] == b[0] && Le(a[1..], b[1..]))))
  }

  lemma {:induction false} LtIffNotLe(a: string, b: string)
    ensures Lt(a, b) <==> !Le(b, a)
  {
    if |a| > 0 && |b| > 0 && a[0] == b[0] {
      LtIffNotLe(a[1..], b[1..]);
    }
  }

  lemma {:induction false} LeRefl(a: string)
    ensures Le(a, a)
  {
    if |a| > 0 {
      LeRefl(a[1..]);
    }
  }

  lemma {:induction false} LeTotal(a: string, b: string)
    ensures Le(a, b) || Le(b, a)
  {
    if |a| > 0 && |b| > 0 && a[0] == b[0] {
      LeTotal(a[1..], b[1..]);
    }
  }

  lemma {:induction false} LeAntisymmetric(a: string, b: string)
    requires Le(a, b) && Le(b, a)
    ensures a == b
  {
    if |a| > 0 && |b| > 0 {
      LeAntisymmetric(a[1..], b[1..]);
      assert a == [a[0]] + a[1..] && b == [b[0]] + b[1..];
    }
  }

  lemma {:induction false} LeTransitive(a: string, b: string, c: string)
    requires Le(a, b) && Le(b, c)
    ensures Le(a, c)
  {
    if |a| > 0 && |b| > 0 && |c| > 0 && a[0] == b[0] && b[0] == c[0] {
      LeTransitive(a[1..], b[1..], c[1..]);
    }
  }

  /** Strict order is the reflexive order without equality. */
  lemma LtIffLeAndDistinct(a: string, b: string)
    ensures Lt(a, b) <==> Le(a, b) && a != b
  {
    LtIffNotLe(a, b);
    LeTotal(a, b);
    LeRefl(a);
    if Le(a, b) && Le(b, a) {
      LeAntisymmetric(a, b);
    }
  }

  /** Behind a common-length prefix, the prefixes decide first. */
  lemma {:induction false} LtAppend(p: string, q: string, x: string, y: string)
    requires |p| == |q|
    ensures Lt(p + x, q + y) <==> Lt(p, q) || (p == q && Lt(x, y))
  {
    if |p| > 0 {
      assert (p + x)[0] == p[0] && (q + y)[0] == q[0];
      assert (p + x)[1..] == p[1..] + x && (q + y)[1..] == q[1..] + y;
      LtAppend(p[1..], q[1..], x, y);
      assert p == [p[0]] + p[1..] && q == [q[0]] + q[1..];
    } else {
      assert p + x == x && q + y == y;
    }
  }

  function Pow10(w: nat): (r: nat)
    ensures r >= 1
  {
    if w == 0 then 1 else 10 * Pow10(w - 1)
  }

  function DigitChar(d: nat): (c: char)
    requires d < 10
    ensures '0' <= c <= '9'
  {
    (48 + d) as char
  }

  /** `n.toString().padStart(w, '0')` for a number that fits in `w` digits. */
  function Padded(n: nat, w: nat): (r: string)
    requires n < Pow10(w)
    ensures |r| == w
    ensures forall i :: 0 <= i < |r| ==> '0' <= r[i] <= '9'
  {
    if w == 0 then [] else Padded(n / 10, w - 1) + [DigitChar(n % 10)]
  }

  /** Zero-padded numbers of one width compare as strings exactly as they compare as numbers. */
  lemma {:induction false} PaddedOrder(n: nat, k: nat, w: nat)
    requires n < Pow10(w) && k < Pow10(w)
    ensures Lt(Padded(n, w), Padded(k, w)) <==> n < k
    ensures Padded(n, w) == Padded(k, w) <==> n == k
  {
    if w > 0 {
      var p, q := Padded(n / 10, w - 1), Padded(k / 10, w - 1);
      var c, d := DigitChar(n % 10), DigitChar(k % 10);
      PaddedOrder(n / 10, k / 10, w - 1);
      LtAppend(p, q, [c], [d]);
      assert Lt([c], [d]) <==> c < d;
      assert c < d <==> n % 10 < k % 10;
      assert p + [c] == q + [d] <==> p == q && c == d by {
        if p + [c] == q + [d] {
          assert p == (p + [c])[..|p|] && q == (q + [d])[..|q|];
          assert c == (p + [c])[|p|] && d == (q + [d])[|q|];
        }
      }
      assert n == 10 * (n / 10) + n % 10 && k == 10 * (k / 10) + k % 10;
    }
  }

  /** Two equal-width fields joined by the same separator compare field by field. */
  lemma LtSeparated(p: string, q: string, sep: string, x: string, y: string)
    requires |p| == |q|
    ensures Lt(p + sep + x, q + sep + y) <==> Lt(p, q) || (p == q && Lt(x, y))
    ensures p + sep + x == q + sep + y <==> p == q && x == y
  {
    assert p + sep + x == p + (sep + x) && q + sep + y == q + (sep + y);
    LtAppend(p, q, sep + x, sep + y);
    LtAppend(sep, sep, x, y);
    LtIffNotLe(sep, sep);
    LeRefl(sep);
    if p + sep + x == q + sep + y {
      assert p == (p + sep + x)[..|p|] && q == (q + sep + y)[..|q|];
      assert x == (p + sep + x)[|p| + |sep|..] && y == (q + sep + y)[|q| + |sep|..];
    }
  }

  /** A calendar date; `Iso` writes it as `YYYY-MM-DD`. */
  datatype Date = Date(year: nat, month: nat, day: nat) {
    predicate Valid() {
      year < 10000 && 1 <= month <= 12 && 1 <= day <= 31
    }

    /** Calendar order: by year, then month, then day. */
    predicate Before(other: Date) {
      year < other.year
      || (year == other.year && (month < other.month || (month == other.month && day < other.day)))
    }

    function Iso(): (s: string)
      requires Valid()
      ensures |s| == 10 && s[4] == '-' && s[7] == '-'
    {
      Padded(year, 4) + "-" + (Padded(month, 2) + "-" + Padded(day, 2))
    }
  }

  /** For `YYYY-MM-DD` strings, string order is calendar order, and distinct dates are distinct strings. */
  lemma IsoOrder(a: Date, b: Date)
    requires a.Valid() && b.Valid()
    ensures Lt(a.Iso(), b.Iso()) <==> a.Before(b)
    ensures a.Iso() == b.Iso() <==> a == b
  {
    PaddedOrder(a.year, b.year, 4);
    PaddedOrder(a.month, b.month, 2);
    PaddedOrder(a.day, b.day, 2);
    LtSeparated(Padded(a.month, 2), Padded(b.month, 2), "-", Padded(a.day, 2), Padded(b.day, 2));
    LtSeparated(Padded(a.year, 4), Padded(b.year, 4), "-",
                Padded(a.month, 2) + "-" + Padded(a.day, 2), Padded(b.month, 2) + "-" + Padded(b.day, 2));
  }

  /** `HH:MM`, as the time selector builds it from two zero-padded menus. */
  function TimeString(hour: nat, minute: nat): (s: string)
    requires hour < 24 && minute < 60
    ensures |s| == 5 && s[2] == ':'
    ensures forall i :: 0 <= i < 5 && i != 2 ==> '0' <= s[i] <= '9'
  {
    Padded(hour, 2) + ":" + Padded(minute, 2)
  }

  /** `s.split(c)[0]`: the text before the first c, or all of s when it has none. */
  function FieldBefore(s: string, c: char): (r: string)
    ensures c !in r
    ensures |r| <= |s| && r == s[..|r|]
    ensures |r| < |s| ==> s[|r|] == c
  {
    if |s| == 0 || s[0] == c then "" else [s[0]] + FieldBefore(s[1..], c)
  }

  /** The first c in s marks the end of the first field. */
  lemma FieldBeforeAt(s: string, c: char, k: nat)
    requires k <= |s| && c !in s[..k] && (k < |s| ==> s[k] == c)
    ensures FieldBefore(s, c) == s[..k]
  {
    var r := FieldBefore(s, c);
    assert |r| == k;
  }

  /** `s.split(c)[1]`, with the missing field of a text without c read as the empty text, which
      is how `|| fallback` treats `undefined`. */
  function SecondField(s: string, c: char): (r: string)
    ensures c !in r
    ensures |FieldBefore(s, c)| == |s| ==> r == ""
    ensures var k := |FieldBefore(s, c)| + 1;
      k <= |s| ==> k + |r| <= |s| && r == s[k..k + |r|] && (k + |r| < |s| ==> s[k + |r|] == c)
  {
    var a := FieldBefore(s, c);
    if |a| == |s| then "" else FieldBefore(s[|a| + 1..], c)
  }

  /** The time the time selector writes back into the item editor when it mounts: the hour and
      minute fields of the editor's time, with "10" and "00" for a missing or empty field. */
  function SelectorTime(v: string): (r: string)
    ensures ':' in r && |r| >= 3
    ensures var h := FieldBefore(r, ':');
      && h != "" && h == OrElse(FieldBefore(v, ':'), "10")
      && |h| < |r| && r[|h| + 1..] != "" && ':' !in r[|h| + 1..]
      && r[|h| + 1..] == OrElse(SecondField(v, ':'), "00")
  {
    var h, m := OrElse(FieldBefore(v, ':'), "10"), OrElse(SecondField(v, ':'), "00");
    var r := h + ":" + m;
    assert r[|h|] == ':';
    assert r[..|h|] == h;
    FieldBeforeAt(r, ':', |h|);
    assert r[|h| + 1..] == m;
    r
  }

  /** A time of two non-empty colon-free fields is left as it is. */
  lemma {:induction false} SelectorTimeOfFields(h: string, m: string)
    requires h != "" && m != "" && ':' !in h && ':' !in m
    ensures SelectorTime(h + ":" + m) == h + ":" + m
  {
    var v := h + ":" + m;
    assert v[..|h|] == h;
    FieldBeforeAt(v, ':', |h|);
    assert v[|h| + 1..] == m;
    FieldBeforeAt(m, ':', |m|);
    assert m[..|m|] == m;
  }

  /** Every time the selector's two menus can produce survives the rewrite. */
  lemma SelectorKeepsMenuTimes(hour: nat, minute: nat)
    requires hour < 24 && minute < 60
    ensures SelectorTime(TimeString(hour, minute)) == TimeString(hour, minute)
  {
    var s := TimeString(hour, minute);
    assert s == s[..2] + ":" + s[3..];
    assert ':' !in s[..2] by { assert forall i :: 0 <= i < 2 ==> s[..2][i] == s[i]; }
    assert ':' !in s[3..] by { assert forall i :: 0 <= i < 2 ==> s[3..][i] == s[3 + i]; }
    SelectorTimeOfFields(s[..2], s[3..]);
  }

  /** The rewrite is idempotent: running the effect again changes nothing. */
  lemma SelectorTimeIdempotent(v: string)
    ensures SelectorTime(SelectorTime(v)) == SelectorTime(v)
  {
    SelectorTimeOfFields(OrElse(FieldBefore(v, ':'), "10"), OrElse(SecondField(v, ':'), "00"));
  }

  /** A time without a colon gains a minute field: "0930" is written back as "0930:00". */
  lemma SelectorTimeAddsMinutes()
    ensures SelectorTime("0930") == "0930:00"
  {
    FieldBeforeAt("0930", ':', 4);
    assert "0930"[..4] == "0930";
  }

  /** An empty time takes both defaults. */
  lemma SelectorTimeOfEmpty()
    ensures SelectorTime("") == "10:00"
  {
    FieldBeforeAt("", ':', 0);
  }

  /** An empty minute field takes the default "00". */
  lemma SelectorTimeOfHourOnly()
    ensures SelectorTime("10:") == "10:00"
  {
    FieldBeforeAt("10:", ':', 2);
    assert "10:"[..2] == "10";
    FieldBeforeAt("", ':', 0);
  }

  /** An empty hour field takes the default "10". */
  lemma SelectorTimeOfMinuteOnly()
    ensures SelectorTime(":30") == "10:30"
  {
    FieldBeforeAt(":30", ':', 0);
    assert ":30"[1..] == "30";
    FieldBeforeAt("30", ':', 2);
    assert "30"[..2] == "30";
  }

  /** Fields past the second are dropped. */
  lemma SelectorTimeDropsThirdField()
    ensures SelectorTime("1:2:3") == "1:2"
  {
    FieldBeforeAt("1:2:3", ':', 1);
    assert "1:2:3"[..1] == "1" && "1:2:3"[2..] == "2:3";
    FieldBeforeAt("2:3", ':', 1);
    assert "2:3"[..1] == "2";
  }

  /** Comparing `HH:MM` strings compares the minutes since midnight. */
  lemma TimeOrder(h1: nat, m1: nat, h2: nat, m2: nat)
    requires h1 < 24 && m1 < 60 && h2 < 24 && m2 < 60
    ensures Lt(TimeString(h1, m1), TimeString(h2, m2)) <==> h1 * 60 + m1 < h2 * 60 + m2
    ensures TimeString(h1, m1) == TimeString(h2, m2) <==> h1 == h2 && m1 == m2
  {
    PaddedOrder(h1, h2, 2);
    PaddedOrder(m1, m2, 2);
    LtSeparated(Padded(h1, 2), Padded(h2, 2), ":", Padded(m1, 2), Padded(m2, 2));
  }

  /** `n.toString()` for a natural number. */
  function Decimal(n: nat): (r: string)
    ensures |r| >= 1 && n < Pow10(|r|)
    ensures r == Padded(n, |r|)
    ensures r[0] == '0' <==> n == 0
    ensures |r| == 1 || Pow10(|r| - 1) <= n
  {
    if n < 10 then [DigitChar(n)] else Decimal(n / 10) + [DigitChar(n % 10)]
  }

  /** Distinct numbers print differently. */
  lemma DecimalInjective(n: nat, k: nat)
    requires Decimal(n) == Decimal(k)
    ensures n == k
  {
    var w := |Decimal(n)|;
    PaddedOrder(n, k, w);
  }
}

=== FILE: types.dfy ===
/** The app's records. Every identifier and date is an opaque string. */
module Types {
  import opened Common

  /** Dates are `YYYY-MM-DD` strings; the status of a trip is derived from them, not stored. */
  datatype Trip = Trip(id: string, name: string, startDate: string, endDate: string)

  /** `mapLink` is declared but never read or written by the app; it is not modelled. */
  datatype ItineraryItem = ItineraryItem(
    id: string, time: string, title: string, location: string, note: Option<string>, isCompleted: bool)

  datatype DayItinerary = DayItinerary(id: string, date: string, dayLabel: string, items: seq<ItineraryItem>)

  datatype MemoType = EAT | BUY | GO

  datatype MemoItem = MemoItem(id: string, kind: MemoType, content: string, tags: seq<string>, isCompleted: bool)

  datatype SafetyContact = SafetyContact(id: string, name: string, phone: string, relation: string)

  /** The accommodation as the app stores and edits it: one record of three texts. */
  datatype Accommodation = Accommodation(name: string, address: string, note: string)

  datatype SafetyData = SafetyData(contacts: seq<SafetyContact>, passportNumber: string, accommodation: Accommodation)

  datatype Mood = HAPPY | CALM | TIRED | LOVED

  datatype MoodEntry = MoodEntry(id: string, date: string, mood: Mood, note: string)

  // Key functions: the `id` field of each record.
  function TripId(t: Trip): string { t.id }
  function DayId(d: DayItinerary): string { d.id }
  function ItemId(i: ItineraryItem): string { i.id }
  function MemoId(m: MemoItem): string { m.id }
  function ContactId(c: SafetyContact): string { c.id }
  function MoodId(m: MoodEntry): string { m.id }

  const HappyIcon := "\U{1F60A}"
  const CalmIcon := "\U{1F60C}"
  const TiredIcon := "\U{1F635}"
  const LovedIcon := "\U{1FAF6}"
  const NeutralIcon := "\U{1F610}"

  /** The emoji shown for a mood. */
  function MoodIcon(m: Mood): (icon: string)
    ensures m == HAPPY ==> icon == HappyIcon
    ensures m == CALM ==> icon == CalmIcon
    ensures m == TIRED ==> icon == TiredIcon
    ensures m == LOVED ==> icon == LovedIcon
    ensures icon != NeutralIcon
  {
    match m
    case HAPPY => HappyIcon
    case CALM => CalmIcon
    case TIRED => TiredIcon
    case LOVED => LovedIcon
  }

  /** A mood as it appears in stored or imported data: one of the four names. */
  function MoodName(m: Mood): (name: string)
    ensures name in {"HAPPY", "CALM", "TIRED", "LOVED"}
  {
    match m
    case HAPPY => "HAPPY"
    case CALM => "CALM"
    case TIRED => "TIRED"
    case LOVED => "LOVED"
  }

  /** The icon switch applied to an arbitrary string, default branch included. */
  function MoodIconOfName(name: string): (icon: string)
    ensures name !in {"HAPPY", "CALM", "TIRED", "LOVED"} ==> icon == NeutralIcon
  {
    if name == "HAPPY" then HappyIcon
    else if name == "CALM" then CalmIcon
    else if name == "TIRED" then TiredIcon
    else if name == "LOVED" then LovedIcon
    else NeutralIcon
  }

  /** Every well-typed mood reaches its own case: the default icon is never shown for one. */
  lemma MoodIconDefaultUnreachable(m: Mood)
    ensures MoodIconOfName(MoodName(m)) == MoodIcon(m)
    ensures MoodIconOfName(MoodName(m)) != NeutralIcon
  {
  }

  /** The four moods have four different names. */
  lemma MoodNameInjective(a: Mood, b: Mood)
    requires MoodName(a) == MoodName(b)
    ensures a == b
  {
    assert "HAPPY"[0] != "CALM"[0] && "HAPPY"[0] != "TIRED"[0] && "HAPPY"[0] != "LOVED"[0];
    assert "CALM"[0] != "TIRED"[0] && "CALM"[0] != "LOVED"[0] && "TIRED"[0] != "LOVED"[0];
  }

  /** The four moods have four different icons. */
  lemma MoodIconInjective(a: Mood, b: Mood)
    requires MoodIcon(a) == MoodIcon(b)
    ensures a == b
  {
    assert HappyIcon[0] != CalmIcon[0] && HappyIcon[0] != TiredIcon[0] && HappyIcon[0] != LovedIcon[0];
    assert CalmIcon[0] != TiredIcon[0] && CalmIcon[0] != LovedIcon[0] && TiredIcon[0] != LovedIcon[0];
  }
}
